=== FILE: README.md ===
# Amazon and eBay result scrapers, modelled in Dafny

This project models the logic of two Selenium scrapers, `Selenium_Amazon.py`
and `Selenium_eBay.py`. Everything the browser does is taken as data:

- **Locators.** A locator attempt is `Some(text)` when the element was found
  and read, and `None` when the lookup raised.
- **Listing pages.** A listing page is the `find_elements` outcome of each
  container selector, plus whether a "next" link was clicked.
- **Product pages.** A product page (`Details.ProductPage`) records every read
  that one visit makes.
- **Clipboard.** The clipboard is the sequence of its six pastes.

On that data the model reproduces:

- the ordered-fallback field resolvers, in both loop shapes of the source;
- the paged and inline review collectors, with their page and review bounds;
- the ASIN search, the reviews-page URL and the `parse_country_from_date`
  regular expression;
- the share-link polling;
- the tile parser and the tile selection of the Amazon search page;
- the product-details orchestration and the row building of
  `scrape_products`, including `top_k_review_texts` and the `" ||| "`
  concatenations;
- `sanitize_name`;
- eBay's `force_english_url`, on a split URL whose query is an ordered dict;
- eBay's `scrape_results_basic` card loop.

Modules:

- `Wrappers`: `Option`.
- `Text`: Python's `str.strip` whitespace set, ASCII `lower`, slicing, `join`
  and `re.sub(r"\s+", …)`.
- `Resolver`: the fallback loops.
- `Collect`: the "append, stop at the bound" collectors.
- `Names`, `AmazonUrls`, `Country`, `Reviews`, `ShareLink`, `Tiles`,
  `Details`, `Rows`, `EbayUrls`, `EbayResults`: one module per part of the
  scrapers.

The source writes its fallback loops in two shapes:

- **Check then assign** (`if ok(t): x = t; break`). This keeps the first
  valid value or the default. It is `Resolver.FirstValid` and
  `Resolver.ResolveFirst`.
- **Assign then check** (`x = read(); if ok(x): break`). This keeps the last
  value read when none passes. It is `Resolver.LastRead` and
  `Resolver.ReadUntilValid`.

For the "non-empty" check the two shapes agree (`Resolver.LoopShapesAgree`).
For the warranty body's "longer than five characters" check they do not: a
short last body is kept (`Details.WarrantyKeepsShortLastBody`).

Every collector that appends and then stops once `len >= max` is bounded by
`Cap(max) = max(max, 1)`. The check comes after the append, so a bound of 0
or less still lets one element through.

## Model

| member | source | states |
|---|---|---|
| Names.SanitizeName | Selenium_eBay.py:20-24 | the result is "query" or a non-empty name of at most 80 characters from `[a-z0-9._-]` (the body both scrapers share) |
| Names.SanitizeQuery | Selenium_Amazon.py:28-32 | the Amazon copy, which reads `None` as "" first: `None` gives "query"; otherwise the same guarantee as `sanitize_name` |
| Names.SanitizeNameFixesNames | Selenium_Amazon.py:28-32 | a string that is already a valid name is returned unchanged |
| Names.SanitizeNameIdempotent | Selenium_Amazon.py:28-32 | sanitizing twice is sanitizing once |
| Names.SanitizeNameJoinsSpaceRun | Selenium_Amazon.py:31 | two names separated by a run of spaces become `x_y` |
| Names.SanitizeNameDropsFiltered | Selenium_Amazon.py:30 | a character outside the kept class is dropped before the whitespace runs are replaced |
| Names.SanitizeNameDropsTab | Selenium_Amazon.py:30-31 | a tab between two names is deleted, not turned into '_' |
| Names.DefaultIsName | Selenium_Amazon.py:32 | the fallback "query" is itself a valid name |
| Names.KeepCharsKeeps | Selenium_Amazon.py:30 | only characters of the class `[a-z0-9._ -]` survive the filter |
| Text.Strip | Selenium_Amazon.py:29 | the result has no whitespace at either end, is empty exactly when the input is all whitespace, and leaves an already stripped string unchanged |
| Text.SubstituteSpaceRunsSplit | Selenium_Amazon.py:132 | each maximal whitespace run is replaced by one replacement string |
| Text.SubstituteSpaceRunsNoSpace | Selenium_Amazon.py:132 | text without whitespace is left unchanged by the substitution |
| Resolver.FirstValid | Selenium_Amazon.py:529-543 | a value is found exactly when some attempt read a value that passes the check, and that value passes and was read |
| Resolver.ResolveFirst | Selenium_Amazon.py:529-543 | the check-then-assign loop returns the first passing value, or the default |
| Resolver.ReadUntilValid | Selenium_Amazon.py:124-130 | the assign-then-check loop returns the first passing value, or else the last value read |
| Resolver.LastRead | Selenium_Amazon.py:124-130 | the value kept is the initial value or one that was read |
| Resolver.LastReadOfFailures | Selenium_Amazon.py:247-251 | when every failing value equals the initial value, a loop that finds nothing returns the initial value |
| Resolver.LoopShapesAgree | Selenium_Amazon.py:247-251 | under that condition the two loop shapes give the same result |
| Resolver.FirstValidIgnoresLater | Selenium_Amazon.py:530-542 | locators after a passing one are never consulted |
| Resolver.FirstValidSkipsFailures | Selenium_Amazon.py:538-543 | locators that all fail or raise are skipped without effect |
| Resolver.FieldIsFirstRead | Selenium_Amazon.py:247-251 | a text field is stripped, and is non-empty exactly when some locator read non-blank text |
| Resolver.ReadField | Selenium_eBay.py:293-298 | the `v = read().strip(); if v: break` loop yields that field |
| AmazonUrls.Search | Selenium_Amazon.py:44-45 | the search finds a capture exactly when some position of the URL matches the pattern, and then it is the capture of the leftmost match: 8-16 characters of `[A-Z0-9]` that follow the tag in the URL |
| AmazonUrls.AsinFromUrl | Selenium_Amazon.py:41-46 | "" gives None; an ASIN found is 8-16 characters of `[A-Z0-9]` and follows `/dp/`, `/product-reviews/` or `/global-reviews/` in the URL |
| AmazonUrls.AsinFromUrlFinds | Selenium_Amazon.py:42-46 | a match of any of the three patterns anywhere in the URL yields an ASIN |
| AmazonUrls.AsinFromUrlNeedsMatch | Selenium_Amazon.py:42-46 | an ASIN is returned only when one of the three patterns matches somewhere in the URL |
| AmazonUrls.AsinFromUrlFallsBack | Selenium_Amazon.py:43-46 | without a `/dp/` match the `/product-reviews/` match is returned, and the `/global-reviews/` one only when that is missing too |
| AmazonUrls.AsinFromUrlPrefersDp | Selenium_Amazon.py:43-45 | when the `/dp/` pattern matches, its ASIN is returned before the other patterns are tried |
| AmazonUrls.AsinOfReviewsUrl | Selenium_Amazon.py:207-209 | the ASIN read back from a built reviews URL is the ASIN it was built from |
| AmazonUrls.ReviewsPageUrl | Selenium_Amazon.py:186-212 | no current URL gives None; a current URL that contains `/product-reviews/` is returned as it is; any URL returned contains `/product-reviews/` |
| AmazonUrls.ReviewsPageUrlCarriesAsin | Selenium_Amazon.py:207-209 | a built reviews URL carries the product URL's ASIN, or else the current URL's ASIN |
| AmazonUrls.ReviewsUrlContainsTag | Selenium_Amazon.py:209 | a built reviews URL contains `/product-reviews/` |
| AmazonUrls.Absolutise | Selenium_Amazon.py:556 | an href starting with "http" is kept; any other href is prefixed with the Amazon origin |
| AmazonUrls.AbsolutiseIdempotent | Selenium_Amazon.py:556 | making a URL absolute twice is making it absolute once |
| AmazonUrls.AbsolutiseKeepsHref | Selenium_Amazon.py:555-556 | a tag that occurs in the href still occurs in the absolute URL |
| Country.ParseCountry | Selenium_Amazon.py:364-367 | "" gives ""; the result is stripped and has no newline; a non-empty result is the stripped text of a one-line group that starts right after an occurrence of "reviewed in" (case-insensitive) and at least one whitespace character of the run after it, or after that whole run, "the" and at least one whitespace character, and that is followed by `\s+on\s+` |
| Country.NoShapeNoCountry | Selenium_Amazon.py:366-367 | text without "reviewed in" gives "" |
| Country.NoTailNoCountry | Selenium_Amazon.py:366-367 | text with no whitespace-delimited "on" followed by whitespace, such as "Reviewed in Spain", gives "" |
| Country.ParseCountryOfDateLine | Selenium_Amazon.py:364-367 | "Reviewed in the X on D" gives X for every plain country name X |
| Country.ParseCountryOfPlainDateLine | Selenium_Amazon.py:364-367 | "Reviewed in X on D" gives X for every plain country name X that does not begin with the word "the" |
| ShareLink.GetProductLink | Selenium_Amazon.py:137-184 | the polling loop returns `ProductLink`: the first link-like paste of six, else the current URL of a product page, else "Link extraction failed", or the current URL when the setup raised |
| ShareLink.ProductLinkCases | Selenium_Amazon.py:171-181 | the link is the first of the six polls that passes the check, or no poll passes and the link is the fallback |
| ShareLink.ProductLinkReadsSix | Selenium_Amazon.py:171 | pastes after the sixth never matter |
| ShareLink.FirstReadWins | Selenium_Amazon.py:173-176 | a link-like first paste is returned, stripped |
| ShareLink.EmptyClipboardFallsBack | Selenium_Amazon.py:178-181 | with no paste the result is the product-page URL or "Link extraction failed" |
| Reviews.ExtractBlock | Selenium_Amazon.py:240-283 | one block gives a record exactly when its text field is non-empty; a foreign record's origin is the country of its date |
| Reviews.ReadBlocks | Selenium_Amazon.py:228-237 | the blocks are those of the first container selector that found any, else none |
| Reviews.VisitedFromStops | Selenium_Amazon.py:285-294 | every page before the last one visited clicked "next"; a page loop that ends before `max_pages` ended on a page without a next link |
| Reviews.PagesReviewsMono | Selenium_Amazon.py:224-296 | the reviews of fewer pages are a prefix of the reviews of more pages |
| Reviews.CollectBlocks | Selenium_Amazon.py:240-283 | the block loop appends each block's record in order and stops exactly when the review bound is reached |
| Reviews.CollectPages | Selenium_Amazon.py:224-296 | the paged collector returns the first `Cap(max_reviews)` records of the pages visited, in page order |
| Reviews.ScrapeFullReviews | Selenium_Amazon.py:215-296 | no reviews-page URL gives []; otherwise the result is the paged collector's |
| Reviews.CollectInline | Selenium_Amazon.py:312-358 | the inline loop gives the records of the first `limit` blocks (Python slice) in order |
| Reviews.ScrapeInlineDomestic | Selenium_Amazon.py:299-361 | a raised lookup gives []; otherwise the result is the inline records |
| Reviews.ScrapeInlineForeign | Selenium_Amazon.py:396-443 | a raised lookup propagates (None); otherwise the result is the inline foreign records |
| Reviews.ScrapeForeignReviews | Selenium_Amazon.py:445-521 | on the global listing, or after following a link to it, the result is the paged foreign records; otherwise it is the inline foreign blocks |
| Reviews.ReviewsHaveText | Selenium_Amazon.py:271 | every collected record has a non-empty, stripped text |
| Reviews.ForeignOrigin | Selenium_Amazon.py:494-500 | every foreign record's origin is `parse_country_from_date` of its own date |
| Reviews.ExtractFields | Selenium_Amazon.py:247-269 | all four fields of a record are stripped |
| Reviews.DomesticAllGood | Selenium_Amazon.py:271-278 | every domestic record has a non-empty text, stripped fields and origin "" |
| Reviews.ForeignAllGood | Selenium_Amazon.py:494-500 | every foreign record has a non-empty text, stripped fields and the origin of its date |
| Reviews.PagesReviewsAll | Selenium_Amazon.py:224-296 | a property that every extracted record has holds for every record of every page |
| Reviews.VisitedOnlyFollowsNextLinks | Selenium_Amazon.py:285-294 | how many pages are visited depends only on the next-link clicks |
| Reviews.TopKTexts | Selenium_Amazon.py:72-86 | `top_k_review_texts` returns exactly k entries for k > 0, and none otherwise |
| Reviews.CollectTexts | Selenium_Amazon.py:74-83 | the loop keeps the first k non-blank stripped texts, in order |
| Reviews.TopK | Selenium_Amazon.py:72-86 | the function returns those texts padded with "" to length k |
| Reviews.TopKShape | Selenium_Amazon.py:72-86 | entry j is the j-th text when there is one, else "" |
| Tiles.ReadTileInfo | Selenium_Amazon.py:524-576 | a tile gives its first valid title (more than 10 characters, not starting with "sponsored"), its first product href made absolute, its first price with '$' or "Price not available", and its ASIN or "Not found"; None when a read outside the field loops raised |
| Tiles.SelectTiles | Selenium_Amazon.py:699-709 | the selected infos are the first `Cap(max_products)` of the first `2*max_products` tiles that have an ASIN, a title and a URL, in tile order |
| Tiles.SelectedIsGood | Selenium_Amazon.py:699-705 | a selected tile has a valid title, an absolute product URL, a real or placeholder price, and its own ASIN |
| Tiles.SelectionKeepsGood | Selenium_Amazon.py:699-709 | every selected info is valid and comes from one of the tiles examined |
| Tiles.SelectionIgnoresLaterTiles | Selenium_Amazon.py:699 | tiles past the first `2*max_products` are never examined: appending tiles after them changes neither the examined slice nor the selected infos |
| Tiles.TitleIgnoresLater | Selenium_Amazon.py:530-542 | once a title selector passes, later selectors do not matter |
| Tiles.TitleSkipsRejected | Selenium_Amazon.py:540-542 | a short or sponsored title read is skipped and the next selector is tried |
| Details.ScrapeWarranty | Selenium_Amazon.py:89-134 | the heading is the first non-blank read; the body is the first read longer than five characters, else the last one read; both are whitespace-normalised, with "Not found" for "" |
| Details.WarrantyKeepsShortLastBody | Selenium_Amazon.py:124-134 | a single short body read is still returned, because the body loop assigns before it checks |
| Details.WarrantyBodyIsLastRead | Selenium_Amazon.py:124-134 | when no body passes, the warranty text is the normalised last read |
| Details.WarrantyHeadingFound | Selenium_Amazon.py:116-134 | the heading is "Not found" exactly when no locator read non-blank text; any other heading comes from a read |
| Details.ScrapeDomestic | Selenium_Amazon.py:607-619 | the domestic reviews are the listing's, or the product page's inline blocks when the listing gives none |
| Details.ScrapeForeign | Selenium_Amazon.py:621-629 | the foreign reviews come from the global listing (only when a reviews page exists), else from the inline foreign blocks |
| Details.ScrapeProductDetails | Selenium_Amazon.py:579-653 | the visit returns the record of the product page's reads, or the "Error loading" record when a step raised |
| Details.VisitFields | Selenium_Amazon.py:588-642 | the rating passes its "out of"/"star" check or is "Not found"; the count passes its "rating"/"review" check or is "Not found"; the warranty heading and text are non-empty and stripped |
| Details.FailedVisitIsError | Selenium_Amazon.py:643-653 | a visit that raised gives the error record with no reviews |
| Details.DetailsReviewsGood | Selenium_Amazon.py:633-642 | every domestic review has text and origin ""; every foreign review has text and the origin of its date |
| Details.ReviewCountsBounded | Selenium_Amazon.py:579-581 | for non-negative limits, at most `Cap(max_reviews)` domestic and `Cap(max_foreign_reviews)` foreign reviews are returned: the limit itself when it is at least 1, one review when it is 0 |
| Details.DefaultReviewCounts | Selenium_Amazon.py:579-581 | at the keyword defaults (`max_reviews=300`, `max_foreign_reviews=200`) a visit keeps at most 300 domestic and 200 foreign reviews |
| Details.DomesticFallback | Selenium_Amazon.py:614-619 | the inline domestic blocks are used exactly when the listing gave no review |
| Details.ForeignWithoutReviewsPage | Selenium_Amazon.py:621-629 | without a reviews page, the foreign reviews are the inline foreign blocks |
| Rows.MakeRow | Selenium_Amazon.py:727-752 | a row holds the tile's fields, the details' fields, the two concatenations, the foreign count and five review columns of each kind |
| Rows.BuildRows | Selenium_Amazon.py:714-754 | the product loop gives one row per selected info, in order |
| Rows.RowsOf | Selenium_Amazon.py:714-754 | there are as many rows as infos, and row i is the row of info i and its visit |
| Rows.ScrapeProducts | Selenium_Amazon.py:657-769 | no tiles gives an empty table; otherwise the table is the rows of the selected tiles |
| Rows.TextsOfClean | Selenium_Amazon.py:72-86 | for records whose texts are clean, the picked texts are exactly the records' texts |
| Rows.DetailsTextsClean | Selenium_Amazon.py:633-653 | the review texts that a visit returns are all clean |
| Rows.ReviewColumns | Selenium_Amazon.py:728-732 | review column j is the j-th review's text, or "" when there are fewer reviews |
| Rows.ConcatIsFirstTexts | Selenium_Amazon.py:734-735 | a concatenation joins the first 999 review texts with " \|\|\| " |
| Rows.NonBlankOfTopK | Selenium_Amazon.py:734 | dropping the blank padding of `top_k` leaves the first k texts |
| Rows.NonBlankKeeps | Selenium_Amazon.py:734 | the non-blank filter keeps every non-blank entry |
| Rows.NonBlankDropsBlanks | Selenium_Amazon.py:734 | the non-blank filter drops every blank entry |
| Rows.RowsFollowInfos | Selenium_Amazon.py:736-748 | row i is numbered i+1 and carries info i's title, price, URL and ASIN, and the number of foreign reviews of its visit |
| Rows.ProductsShape | Selenium_Amazon.py:672-709 | there are at most `Cap(max_products)` rows; none when no selector found a tile; every title passes the title check |
| EbayUrls.ForceEnglishUrl | Selenium_eBay.py:41-48 | the loop builds the query dict pair by pair and sets `_lang` |
| EbayUrls.PutGet | Selenium_eBay.py:45 | after `q[k] = v`, `q[k]` is v |
| EbayUrls.PutOther | Selenium_eBay.py:45 | `q[k] = v` leaves every other key unchanged |
| EbayUrls.PutUnique | Selenium_eBay.py:45 | assigning a key keeps the keys distinct |
| EbayUrls.DictOfUnique | Selenium_eBay.py:44 | `dict(parse_qsl(…))` has distinct keys |
| EbayUrls.DictOfGet | Selenium_eBay.py:44 | each key maps to the value of its last pair, and blank values are kept |
| EbayUrls.DictOfDict | Selenium_eBay.py:44 | pairs with distinct keys are their own dict |
| EbayUrls.ForceEnglishQuery | Selenium_eBay.py:41-48 | the result maps `_lang` to "en-us" and every other key to its last value, has distinct keys, and keeps the other five components |
| EbayUrls.ForceEnglishKeepsUnparseable | Selenium_eBay.py:47-48 | a URL that cannot be split is returned unchanged |
| EbayUrls.ForceEnglishIdempotent | Selenium_eBay.py:41-48 | forcing English twice is forcing it once |
| EbayUrls.ForceEnglishAppendsLang | Selenium_eBay.py:45 | when there was no `_lang`, the query is `dict(pairs)` with `_lang=en-us` added last |
| EbayResults.FindAnchor | Selenium_eBay.py:277-282 | the anchor is that of the first selector that did not raise |
| EbayResults.ReadCard | Selenium_eBay.py:276-302 | one card gives its row (`CardRow`), or nothing when it is skipped |
| EbayResults.ScrapeResultsBasic | Selenium_eBay.py:266-303 | the rows are the first `Cap(max_products)` card rows of the first selector that found cards |
| EbayResults.CollectRows | Selenium_eBay.py:274-302 | the card loop appends each card's row in order and stops at the bound |
| EbayResults.SkippedCards | Selenium_eBay.py:282-289 | a card without an anchor, or with a blank title, gives no row |
| EbayResults.TitleFallsBackToAnchor | Selenium_eBay.py:284-288 | without an `h3` title, the title is the anchor's visible text |
| EbayResults.RowFields | Selenium_eBay.py:288-300 | a row's title is stripped and non-empty; its price is "" exactly when every price read was blank or raised; its URL is the anchor's href with `_lang=en-us` |
| EbayResults.RowsFromCards | Selenium_eBay.py:275-301 | every row is the row of some card; a positive bound is never exceeded |
| EbayResults.RowsInCardOrder | Selenium_eBay.py:275-300 | later cards only add rows after the rows of earlier ones |
| EbayResults.MissingHrefGetsLang | Selenium_eBay.py:291-292 | a missing href becomes the link `?_lang=en-us` with nothing else in it |

## Left out

- Browser control is given as data rather than performed: navigation, waits and sleeps, scrolling, popups, and the clicks on the share, copy-link, expander, "next" and reviews links. `try_click` and `wait_for_page_load` are not part of this model.
- The clipboard's system access (`pyperclip`) is represented by the sequence of pastes.
- The search-box flow (`amazon_detailed_scraper`), eBay's search, language and region navigation, and driver start-up are browser automation with no logic to prove.
- Output is not modelled: the pandas DataFrame and CSV writing (`save_results`), `timestamp`, `ensure_dir`, argument parsing and every `print`.
- URL splitting and serialisation are not modelled. The eBay link is taken already split into six components, with a decoded, ordered query. `urlparse`, `parse_qsl`, `urlencode` and `urlunparse` are outside the model.
- Case folding is ASCII only. Non-ASCII `lower()` and case-insensitive regular-expression matching are not modelled.
- Details.ScrapeProductDetails: every uncaught raise during a visit (navigation, the reviews-page step, a failing inline foreign lookup) is one flag or `None`. Which step raised is not distinguished.
- Reviews.CollectPages: pages past the given sequence are empty pages without a next link.
- Tiles.ReadTileInfo: the `a[href*="{asin}"]` selector, skipped when there is no ASIN, is folded into the tile's given href reads.
- Names.SanitizeName: only Python's `isspace` set counts as whitespace. Tabs and newlines never reach the space-run step, because the character filter removes them first, so only space runs become '_'.
- Details.VisitFields: the whitespace normalisation of the warranty fields is stated only as non-empty and stripped. What `re.sub(r"\s+", " ", …)` does to the inner whitespace is stated separately by `Text.SubstituteSpaceRunsSplit`.
- Country.ParseCountryOfPlainDateLine: a country name that itself begins with the word "the" is not covered, because the optional `(the\s+)?` group takes that word.
- Names.SanitizeName: takes a string, so the eBay copy's raise on `None` (it has no `or ""`) is outside the model; `Names.SanitizeQuery` models the Amazon copy that accepts `None`.
- Details.ReviewCountsBounded: says nothing about negative limits. There the inline `blocks[:limit]` slice drops reviews from the end instead of capping them, so the count is not bounded by the limit.

=== FILE: amazon_urls.dfy ===
/** Amazon URL helpers: `get_asin_from_url`, the canonical reviews-page URL
    built from an ASIN, the choice of reviews page after the product page was
    opened, and the absolutisation of a search tile's href. */
module AmazonUrls {
  import opened Wrappers
  import opened Text

  /** The class `[A-Z0-9]` of an ASIN character (case-sensitive). */
  predicate AsinChar(c: char) {
    ('A' <= c <= 'Z') || ('0' <= c <= '9')
  }

  /** What a capture of `([A-Z0-9]{8,16})` can be. */
  predicate IsAsin(s: string) {
    8 <= |s| <= 16 && forall i :: 0 <= i < |s| ==> AsinChar(s[i])
  }

  const DpTag: string := "/dp/"
  const ReviewsTag: string := "/product-reviews/"
  const GlobalTag: string := "/global-reviews/"

  const ReviewsPrefix: string := "https://www.amazon.com/product-reviews/"
  const ReviewsSuffix: string := "/?reviewerType=all_reviews"

  /** Length of the run of ASIN characters at the start of `s`. */
  function Run(s: string): (n: nat)
    ensures n <= |s|
    ensures forall i :: 0 <= i < n ==> AsinChar(s[i])
    ensures n < |s| ==> !AsinChar(s[n])
  {
    if s == [] || !AsinChar(s[0]) then 0
    else
      var n := Run(s[1..]);
      assert forall i :: 1 <= i < 1 + n ==> s[i] == s[1..][i - 1];
      1 + n
  }

  /** `re.match(tag + "([A-Z0-9]{8,16})", s)`: the greedy quantifier takes
      the run up to 16 characters and fails below 8. */
  function MatchHere(s: string, tag: string): (r: Option<string>)
    ensures r.Some? <==> tag <= s && Run(s[|tag|..]) >= 8
    ensures r.Some? ==> IsAsin(r.value) && tag + r.value <= s
  {
    if tag <= s && Run(s[|tag|..]) >= 8 then
      var rest := s[|tag|..];
      var n := Run(rest);
      var a := rest[..if n <= 16 then n else 16];
      assert s == tag + rest;
      assert tag + a <= s by {
        forall i | 0 <= i < |tag + a| ensures (tag + a)[i] == s[i] {
          if i >= |tag| { assert (tag + a)[i] == a[i - |tag|] == rest[i - |tag|]; }
        }
      }
      Some(a)
    else None
  }

  /** `re.search`: the leftmost position from `start` on where the pattern
      matches, |url| + 1 when there is none. */
  function MatchPos(url: string, tag: string, start: nat): (k: nat)
    requires start <= |url|
    ensures start <= k <= |url| + 1
    ensures k <= |url| ==> MatchHere(url[k..], tag).Some?
    ensures forall j :: start <= j < k && j <= |url| ==> MatchHere(url[j..], tag).None?
    decreases |url| - start
  {
    if MatchHere(url[start..], tag).Some? then start
    else if start == |url| then |url| + 1
    else MatchPos(url, tag, start + 1)
  }

  /** `re.search(tag + "([A-Z0-9]{8,16})", url)`: the capture of the
      leftmost match, None exactly when no position of `url` matches. */
  function Search(url: string, tag: string): (r: Option<string>)
    ensures r.Some? ==> IsAsin(r.value) && Contains(url, tag + r.value)
    ensures r.Some? <==> exists k :: 0 <= k <= |url| && MatchHere(url[k..], tag).Some?
    ensures r.Some? ==> exists k :: 0 <= k <= |url| && MatchHere(url[k..], tag) == r
                           && forall j :: 0 <= j < k ==> MatchHere(url[j..], tag).None?
  {
    var k := MatchPos(url, tag, 0);
    if k <= |url| then
      var r := MatchHere(url[k..], tag);
      assert tag + r.value <= url[k..];
      r
    else
      assert forall j :: 0 <= j <= |url| ==> MatchHere(url[j..], tag).None?;
      None
  }

  /** `get_asin_from_url`: None for the empty URL, otherwise the first of the
      three patterns that occurs, tried in the order /dp/, /product-reviews/,
      /global-reviews/. */
  function AsinFromUrl(url: string): (r: Option<string>)
    ensures url == "" ==> r.None?
    ensures r.Some? ==> IsAsin(r.value)
    ensures r.Some? ==> Contains(url, DpTag + r.value) || Contains(url, ReviewsTag + r.value)
                        || Contains(url, GlobalTag + r.value)
  {
    if url == "" then None
    else
      var dp := Search(url, DpTag);
      if dp.Some? then dp
      else
        var rv := Search(url, ReviewsTag);
        if rv.Some? then rv else Search(url, GlobalTag)
  }

  /** The canonical reviews page of an ASIN (Selenium_Amazon.py:209). */
  function ReviewsUrl(asin: string): (u: string)
    ensures ReviewsPrefix <= u
  {
    ReviewsPrefix + asin + ReviewsSuffix
  }

  /** A /dp/ pattern earlier in the URL wins over a /product-reviews/ one. */
  lemma AsinFromUrlPrefersDp(url: string)
    requires Search(url, DpTag).Some?
    ensures AsinFromUrl(url) == Search(url, DpTag)
  {
  }

  /** A match of any of the three patterns anywhere in the URL yields an
      ASIN: `get_asin_from_url` misses none of them. */
  lemma AsinFromUrlFinds(url: string, tag: string, k: nat)
    requires tag == DpTag || tag == ReviewsTag || tag == GlobalTag
    requires k <= |url| && MatchHere(url[k..], tag).Some?
    ensures AsinFromUrl(url).Some?
  {
    assert url != "";
    assert Search(url, tag).Some?;
  }

  /** Without a /dp/ match, the /product-reviews/ match is taken, and the
      /global-reviews/ one only when that is missing too. */
  lemma AsinFromUrlFallsBack(url: string)
    requires url != "" && Search(url, DpTag).None?
    ensures AsinFromUrl(url) == (if Search(url, ReviewsTag).Some? then Search(url, ReviewsTag)
                                 else Search(url, GlobalTag))
  {
  }

  /** No URL yields an ASIN unless one of the patterns matches in it. */
  lemma AsinFromUrlNeedsMatch(url: string)
    requires AsinFromUrl(url).Some?
    ensures exists k :: 0 <= k <= |url| && (MatchHere(url[k..], DpTag).Some?
              || MatchHere(url[k..], ReviewsTag).Some? || MatchHere(url[k..], GlobalTag).Some?)
  {
    if Search(url, DpTag).None? && Search(url, ReviewsTag).None? {
      var k :| 0 <= k <= |url| && MatchHere(url[k..], GlobalTag).Some?;
    } else if Search(url, DpTag).None? {
      var k :| 0 <= k <= |url| && MatchHere(url[k..], ReviewsTag).Some?;
    } else {
      var k :| 0 <= k <= |url| && MatchHere(url[k..], DpTag).Some?;
    }
  }

  /** No position of `url` starts a match of `tag`. */
  lemma SearchNone(url: string, tag: string)
    requires forall i :: 0 <= i <= |url| ==> !(tag <= url[i..])
    ensures Search(url, tag).None?
  {
  }

  /** A match at `k`, with no occurrence of the tag before it, is the search's
      result. */
  lemma SearchAt(url: string, tag: string, k: nat)
    requires k <= |url| && MatchHere(url[k..], tag).Some?
    requires forall i :: 0 <= i < k ==> !(tag <= url[i..])
    ensures Search(url, tag) == MatchHere(url[k..], tag)
  {
    var p := MatchPos(url, tag, 0);
    assert p <= k;
  }

  /** A run of ASIN characters followed by a non-ASIN character. */
  lemma {:induction false} RunOfAsin(a: string, b: string)
    requires forall i :: 0 <= i < |a| ==> AsinChar(a[i])
    requires b == [] || !AsinChar(b[0])
    ensures Run(a + b) == |a|
    decreases |a|
  {
    if a == [] {
      assert a + b == b;
    } else {
      assert (a + b)[1..] == a[1..] + b;
      RunOfAsin(a[1..], b);
    }
  }

  /** Characters of the canonical URL, position by position: the only
      slashes sit at 6, 7, 22 and 38 and right after the ASIN. */
  lemma ReviewsUrlShape(a: string, i: nat)
    requires IsAsin(a)
    requires i + 1 < |ReviewsUrl(a)|
    requires ReviewsUrl(a)[i] == '/'
    ensures i == 6 || i == 7 || i == 22 || i == 38 || i == 39 + |a|
    ensures ReviewsUrl(a)[i + 1] != 'd'
    ensures i != 22 ==> ReviewsUrl(a)[i + 1] != 'p'
  {
    var u := ReviewsUrl(a);
    var n := |ReviewsPrefix|;
    if i < n {
      assert u[..n] == ReviewsPrefix;
      assert u[n] == a[0];
      PrefixSlash(u, i);
    } else if i < n + |a| {
      assert false;
    } else {
      assert u[n + |a|..] == ReviewsSuffix;
      SuffixSlash(u[n + |a|..], i - n - |a|);
    }
  }

  /** The slashes of the fixed start of the URL, and what follows them. */
  lemma PrefixSlash(u: string, i: nat)
    requires |u| > |ReviewsPrefix| && u[..|ReviewsPrefix|] == ReviewsPrefix
    requires AsinChar(u[|ReviewsPrefix|])
    requires i < |ReviewsPrefix| && u[i] == '/'
    ensures i == 6 || i == 7 || i == 22 || i == 38
    ensures u[i + 1] != 'd'
    ensures i != 22 ==> u[i + 1] != 'p'
  {
    assert u[i] == ReviewsPrefix[i];
    if i + 1 < |ReviewsPrefix| {
      assert u[i + 1] == ReviewsPrefix[i + 1];
    }
  }

  /** The only slash of the fixed end of the URL is its first character. */
  lemma SuffixSlash(t: string, j: nat)
    requires t == ReviewsSuffix
    requires j + 1 < |t| && t[j] == '/'
    ensures j == 0 && t[j + 1] == '?'
  {
  }

  /** The round trip of Selenium_Amazon.py:207-209: the ASIN read back from
      the URL built for it is the same ASIN. */
  lemma AsinOfReviewsUrl(a: string)
    requires IsAsin(a)
    ensures AsinFromUrl(ReviewsUrl(a)) == Some(a)
  {
    var u := ReviewsUrl(a);
    NoDpInReviewsUrl(a);
    SearchNone(u, DpTag);
    NoEarlyReviewsTag(a);
    ReviewsTagAt22(a);
    SearchAt(u, ReviewsTag, 22);
  }

  lemma NoDpInReviewsUrl(a: string)
    requires IsAsin(a)
    ensures forall i :: 0 <= i <= |ReviewsUrl(a)| ==> !(DpTag <= ReviewsUrl(a)[i..])
  {
    var u := ReviewsUrl(a);
    forall i | 0 <= i <= |u| ensures !(DpTag <= u[i..]) {
      if DpTag <= u[i..] {
        assert u[i] == '/' && u[i + 1] == 'd';
        ReviewsUrlShape(a, i);
      }
    }
  }

  lemma NoEarlyReviewsTag(a: string)
    requires IsAsin(a)
    ensures forall i :: 0 <= i < 22 ==> !(ReviewsTag <= ReviewsUrl(a)[i..])
  {
    var u := ReviewsUrl(a);
    forall i | 0 <= i < 22 ensures !(ReviewsTag <= u[i..]) {
      if ReviewsTag <= u[i..] {
        assert u[i] == '/' && u[i + 1] == 'p';
        ReviewsUrlShape(a, i);
      }
    }
  }

  lemma ReviewsTagAt22(a: string)
    requires IsAsin(a)
    ensures 22 <= |ReviewsUrl(a)| && MatchHere(ReviewsUrl(a)[22..], ReviewsTag) == Some(a)
  {
    var u := ReviewsUrl(a);
    var rest := u[22..];
    assert rest == ReviewsTag + (a + ReviewsSuffix);
    assert rest[|ReviewsTag|..] == a + ReviewsSuffix;
    RunOfAsin(a, ReviewsSuffix);
    assert (a + ReviewsSuffix)[..|a|] == a;
  }

  /** `open_reviews_page_from_product` once the product page is open:
      `current` is the browser's URL after the click attempts, None when
      navigating raised. A URL already on a reviews page is kept; otherwise
      the page is built from the ASIN of the product URL or, failing that,
      of the current URL; with neither the result is None. */
  function ReviewsPageUrl(productUrl: string, current: Option<string>): (r: Option<string>)
    ensures current.None? ==> r.None?
    ensures current.Some? && Contains(current.value, ReviewsTag) ==> r == current
    ensures r.Some? ==> Contains(r.value, ReviewsTag)
  {
    match current
    case None => None
    case Some(cur) =>
      if Contains(cur, ReviewsTag) then current
      else
        var asin := if AsinFromUrl(productUrl).Some? then AsinFromUrl(productUrl) else AsinFromUrl(cur);
        match asin
        case None => None
        case Some(a) =>
          ReviewsUrlContainsTag(a);
          Some(ReviewsUrl(a))
  }

  lemma ReviewsUrlContainsTag(a: string)
    ensures Contains(ReviewsUrl(a), ReviewsTag)
  {
    var u := ReviewsUrl(a);
    assert ReviewsTag <= u[22..];
  }

  /** A built reviews page carries the ASIN of the product URL when it has
      one, else that of the current URL. */
  lemma ReviewsPageUrlCarriesAsin(productUrl: string, cur: string)
    requires !Contains(cur, ReviewsTag)
    requires ReviewsPageUrl(productUrl, Some(cur)).Some?
    ensures var r := ReviewsPageUrl(productUrl, Some(cur)).value;
            AsinFromUrl(r) == (if AsinFromUrl(productUrl).Some? then AsinFromUrl(productUrl) else AsinFromUrl(cur))
  {
    var asin := if AsinFromUrl(productUrl).Some? then AsinFromUrl(productUrl) else AsinFromUrl(cur);
    AsinOfReviewsUrl(asin.value);
  }

  const AmazonOrigin: string := "https://www.amazon.com"

  /** Selenium_Amazon.py:556: an href that does not start with "http" gets
      the site origin in front of it. */
  function Absolutise(href: string): (u: string)
    ensures "http" <= u
    ensures "http" <= href ==> u == href
    ensures !("http" <= href) ==> u == AmazonOrigin + href
  {
    if "http" <= href then href else AmazonOrigin + href
  }

  /** Absolutising an absolute URL changes nothing. */
  lemma AbsolutiseIdempotent(href: string)
    ensures Absolutise(Absolutise(href)) == Absolutise(href)
  {
  }

  /** The href is kept whole at the end of the result, so the /dp/ or /gp/
      that made it a product link is still there. */
  lemma AbsolutiseKeepsHref(href: string, tag: string)
    requires Contains(href, tag)
    ensures Contains(Absolutise(href), tag)
  {
    if !("http" <= href) {
      var i :| 0 <= i <= |href| - |tag| && tag <= href[i..];
      var u := AmazonOrigin + href;
      assert u[|AmazonOrigin| + i..] == href[i..];
    }
  }
}

=== FILE: collect.dfy ===
/** The bounded collectors of both scrapers share one shape: walk the items
    in order, turn each into a record or skip it, append, and stop as soon
    as `len(out) >= max`. The check comes after the append, so a collector
    with max <= 0 still returns its first record: the effective bound is
    `Cap(max)`, max(max, 1). This module holds the specification side:
    the filtered records in order (`FilterMap`) and the prefix kept
    (`Take`). */
module Collect {
  import opened Wrappers

  /** The number of records a collector with bound `max` can return. */
  function Cap(max: int): (c: nat)
    ensures c >= 1
    ensures max >= 1 ==> c == max
  {
    if max >= 1 then max else 1
  }

  /** The first `n` elements, all of them when there are fewer. */
  function Take<T>(s: seq<T>, n: nat): (r: seq<T>)
    ensures r <= s
    ensures |r| == if |s| <= n then |s| else n
  {
    if |s| <= n then s else s[..n]
  }

  /** The records `f` gives for `xs`, in order, skipping the items it
      rejects. */
  function FilterMap<A, B>(xs: seq<A>, f: A -> Option<B>): (r: seq<B>)
    ensures |r| <= |xs|
  {
    if xs == [] then []
    else
      var last := f(xs[|xs| - 1]);
      FilterMap(xs[..|xs| - 1], f) + (if last.Some? then [last.value] else [])
  }

  /** One more item appends its record, if any. */
  lemma FilterMapStep<A, B>(xs: seq<A>, i: nat, f: A -> Option<B>)
    requires i < |xs|
    ensures FilterMap(xs[..i + 1], f)
         == FilterMap(xs[..i], f) + (if f(xs[i]).Some? then [f(xs[i]).value] else [])
  {
    assert xs[..i + 1][..i] == xs[..i];
  }

  /** Every record comes from an item: each is `f` of some item. */
  lemma {:induction false} FilterMapFrom<A, B>(xs: seq<A>, f: A -> Option<B>, k: nat)
    requires k < |FilterMap(xs, f)|
    ensures exists i :: 0 <= i < |xs| && f(xs[i]) == Some(FilterMap(xs, f)[k])
    decreases |xs|
  {
    var init := xs[..|xs| - 1];
    var head := FilterMap(init, f);
    if k < |head| {
      FilterMapFrom(init, f, k);
      var i :| 0 <= i < |init| && f(init[i]) == Some(head[k]);
      assert xs[i] == init[i];
    } else {
      assert f(xs[|xs| - 1]) == Some(FilterMap(xs, f)[k]);
    }
  }

  /** Records of a concatenation are the records of each part. */
  lemma {:induction false} FilterMapAppend<A, B>(a: seq<A>, b: seq<A>, f: A -> Option<B>)
    ensures FilterMap(a + b, f) == FilterMap(a, f) + FilterMap(b, f)
    decreases |b|
  {
    if b == [] {
      assert a + b == a;
    } else {
      var b0 := b[..|b| - 1];
      assert (a + b)[..|a + b| - 1] == a + b0;
      FilterMapAppend(a, b0, f);
    }
  }

  /** Records of a longer prefix extend those of a shorter one. */
  lemma FilterMapPrefix<A, B>(xs: seq<A>, i: nat, j: nat, f: A -> Option<B>)
    requires i <= j <= |xs|
    ensures FilterMap(xs[..i], f) <= FilterMap(xs[..j], f)
  {
    assert xs[..j] == xs[..i] + xs[i..j];
    FilterMapAppend(xs[..i], xs[i..j], f);
  }

  lemma FilterMapOfPrefix<A, B>(p: seq<A>, xs: seq<A>, f: A -> Option<B>)
    requires p <= xs
    ensures FilterMap(p, f) <= FilterMap(xs, f)
  {
    FilterMapPrefix(xs, |p|, |xs|, f);
    assert xs[..|p|] == p;
    assert xs[..|xs|] == xs;
  }

  lemma PrefixExtend<T>(a: seq<T>, c: seq<T>, x: seq<T>)
    requires a <= c
    ensures a <= c + x
  {
    assert (c + x)[..|c|] == c;
  }

  lemma PrefixAppendLeft<T>(a: seq<T>, x: seq<T>, y: seq<T>)
    requires x <= y
    ensures a + x <= a + y
  {
    assert (a + y)[..|a + x|] == a + x;
  }

  lemma PrefixTrans<T>(a: seq<T>, b: seq<T>, c: seq<T>)
    requires a <= b && b <= c
    ensures a <= c
  {
    assert c[..|a|] == c[..|b|][..|a|];
  }

  /** A collector that reaches its bound while part-way through a group
      holds the first `n` of all the records. */
  lemma CapReached<T>(before: seq<T>, partial: seq<T>, whole: seq<T>, all: seq<T>, results: seq<T>, n: nat)
    requires partial <= whole
    requires before + whole <= all
    requires results == before + partial && |results| == n
    ensures results == Take(all, n)
  {
    PrefixAppendLeft(before, partial, whole);
    PrefixTrans(results, before + whole, all);
  }

  /** A collector that has taken `n` records from the first `i` items and
      stops there holds the first `n` records of all the items. */
  lemma TakeAtBound<A, B>(xs: seq<A>, i: nat, f: A -> Option<B>, n: nat)
    requires i <= |xs| && |FilterMap(xs[..i], f)| == n
    ensures FilterMap(xs[..i], f) == Take(FilterMap(xs, f), n)
  {
    FilterMapPrefix(xs, i, |xs|, f);
    assert xs[..|xs|] == xs;
  }

  /** A prefix that already holds `n` elements decides `Take(_, n)`. */
  lemma TakeOfPrefix<T>(p: seq<T>, s: seq<T>, n: nat)
    requires p <= s && |p| == n
    ensures Take(s, n) == p
  {
  }

  /** Records taken from a prefix of the items before the bound is
      reached are all the records of that prefix. */
  lemma TakeAll<T>(s: seq<T>, n: nat)
    requires |s| <= n
    ensures Take(s, n) == s
  {
  }

  /** A property every record `f` can give holds of every record kept. */
  lemma FilterMapAll<A, B>(xs: seq<A>, f: A -> Option<B>, P: B -> bool)
    requires forall x :: f(x).Some? ==> P(f(x).value)
    ensures forall k :: 0 <= k < |FilterMap(xs, f)| ==> P(FilterMap(xs, f)[k])
  {
    forall k | 0 <= k < |FilterMap(xs, f)| ensures P(FilterMap(xs, f)[k]) {
      FilterMapFrom(xs, f, k);
    }
  }

  lemma AllConcat<T>(a: seq<T>, b: seq<T>, P: T -> bool)
    requires forall k :: 0 <= k < |a| ==> P(a[k])
    requires forall k :: 0 <= k < |b| ==> P(b[k])
    ensures forall k :: 0 <= k < |a + b| ==> P((a + b)[k])
  {
    forall k | 0 <= k < |a + b| ensures P((a + b)[k]) {
      if k >= |a| {
        assert (a + b)[k] == b[k - |a|];
      }
    }
  }

  lemma AllTake<T>(s: seq<T>, n: nat, P: T -> bool)
    requires forall k :: 0 <= k < |s| ==> P(s[k])
    ensures forall k :: 0 <= k < |Take(s, n)| ==> P(Take(s, n)[k])
  {
    forall k | 0 <= k < |Take(s, n)| ensures P(Take(s, n)[k]) {
      assert Take(s, n)[k] == s[k];
    }
  }
}

=== FILE: country.dfy ===
/** `parse_country_from_date` (Selenium_Amazon.py:364-367): the search of
    `Reviewed in\s+(the\s+)?(.+?)\s+on\s+` under `re.I`, written out in the
    order Python's backtracking matcher tries the alternatives:
    - start positions from left to right;
    - the `\s+` after "in" tries its longest run first, then shorter ones;
    - the optional `the\s+` is tried before skipping it, its `\s+` again
      longest first;
    - the lazy `(.+?)` grows one character at a time, never across '\n';
    - the tail `\s+on\s+`.
    The first path that reaches the end of the pattern gives group 2. */
module Country {
  import opened Wrappers
  import opened Text

  /** Positions `start .. end` of the captured country text. */
  datatype Span = Span(start: nat, end: nat)

  /** Length of the whitespace run of `s` starting at `q`. */
  function WsRun(s: string, q: nat): (n: nat)
    requires q <= |s|
    ensures q + n <= |s|
    ensures forall k :: q <= k < q + n ==> IsSpace(s[k])
    ensures q + n < |s| ==> !IsSpace(s[q + n])
    decreases |s| - q
  {
    if q < |s| && IsSpace(s[q]) then 1 + WsRun(s, q + 1) else 0
  }

  /** The lower-case literal `lit` occurs at `q`, ignoring ASCII case. */
  predicate LitAt(s: string, q: nat, lit: string) {
    q + |lit| <= |s| && forall k :: 0 <= k < |lit| ==> LowerChar(s[q + k]) == lit[k]
  }

  /** `\s+on\s+` matches at `q`. The first `\s+` can only give back
      whitespace and 'o' is not whitespace, so only its whole run can be
      followed by "on"; the last `\s+` needs one whitespace character. */
  predicate TailAt(s: string, q: nat)
    requires q <= |s|
  {
    var r := WsRun(s, q);
    r >= 1 && LitAt(s, q + r, "on") && q + r + 2 < |s| && IsSpace(s[q + r + 2])
  }

  /** A possible group 2: non-empty, without '\n', followed by the tail. */
  predicate GroupOk(s: string, g: Span) {
    g.start < g.end <= |s|
    && (forall k :: g.start <= k < g.end ==> s[k] != '\n')
    && TailAt(s, g.end)
  }

  /** The lazy `(.+?)` from `g`, having consumed up to `e`: the shortest
      extension that is followed by the tail. */
  function LazyFrom(s: string, g: nat, e: nat): (r: Option<Span>)
    requires g < e <= |s|
    requires forall k :: g <= k < e - 1 ==> s[k] != '\n'
    ensures r.Some? ==> GroupOk(s, r.value) && r.value.start == g && e <= r.value.end
    ensures r.Some? ==> forall x :: e <= x < r.value.end ==> !TailAt(s, x)
    decreases |s| - e
  {
    if s[e - 1] == '\n' then None
    else if TailAt(s, e) then Some(Span(g, e))
    else if e == |s| then None
    else LazyFrom(s, g, e + 1)
  }

  function Lazy(s: string, g: nat): (r: Option<Span>)
    requires g <= |s|
    ensures r.Some? ==> GroupOk(s, r.value) && r.value.start == g
    ensures r.Some? ==> forall x :: g < x < r.value.end ==> !TailAt(s, x)
  {
    if g < |s| then LazyFrom(s, g, g + 1) else None
  }

  /** After "the" at `b - 3`: its `\s+` tried with `m` characters, then fewer. */
  function AfterThe(s: string, b: nat, m: nat): (r: Option<Span>)
    requires b + m <= |s|
    ensures r.Some? ==> GroupOk(s, r.value) && b < r.value.start <= b + m
    decreases m
  {
    if m == 0 then None
    else
      var r := Lazy(s, b + m);
      if r.Some? then r else AfterThe(s, b, m - 1)
  }

  /** `(the\s+)?` at `a`, tried present before absent, then the group. */
  function OptThe(s: string, a: nat): (r: Option<Span>)
    requires a <= |s|
    ensures r.Some? ==> GroupOk(s, r.value)
    ensures r.Some? ==> r.value.start == a || TheOpens(s, a, r.value.start)
  {
    var t := if LitAt(s, a, "the") then AfterThe(s, a + 3, WsRun(s, a + 3)) else None;
    if t.Some? then t else Lazy(s, a)
  }

  /** After "Reviewed in" ending at `c`: its `\s+` tried with `j` characters,
      then fewer. */
  function AfterIn(s: string, c: nat, j: nat): (r: Option<Span>)
    requires c + j <= |s|
    requires forall k :: c <= k < c + j ==> IsSpace(s[k])
    ensures r.Some? ==> GroupOk(s, r.value)
    ensures r.Some? ==> c < r.value.start <= c + j || TheOpens(s, c + j, r.value.start)
    decreases j
  {
    if j == 0 then None
    else
      var r := OptThe(s, c + j);
      if r.Some? then r
      else
        assert IsSpace(s[c + j - 1]);
        assert LowerChar(s[c + j - 1]) != "the"[0];
        AfterIn(s, c, j - 1)
  }

  /** The whole pattern tried at start position `p`. */
  function MatchAt(s: string, p: nat): (r: Option<Span>)
    requires p <= |s|
    ensures r.Some? ==> GroupOk(s, r.value) && Opens(s, p, r.value.start)
  {
    if LitAt(s, p, "reviewed in") then AfterIn(s, p + 11, WsRun(s, p + 11)) else None
  }

  /** "the" at `a` and its `\s+` run, which the group can start anywhere
      after, up to the run's end. */
  predicate TheOpens(s: string, a: nat, b: nat) {
    LitAt(s, a, "the") && a + 3 < b <= a + 3 + WsRun(s, a + 3)
  }

  /** Group 2 can start at `b` for a match of the pattern at `q`: after
      "reviewed in" and part of its `\s+` run (the group may itself start
      with whitespace), or after the whole run, "the" and part of the run
      after it. */
  predicate Opens(s: string, q: nat, b: nat) {
    q + 11 <= |s| && LitAt(s, q, "reviewed in")
    && var c := q + 11;
       c < b <= c + WsRun(s, c) || TheOpens(s, c + WsRun(s, c), b)
  }

  /** `re.search`: the first start position from `p` on where the pattern
      matches. */
  function SearchFrom(s: string, p: nat): (r: Option<Span>)
    requires p <= |s|
    ensures r.Some? ==> GroupOk(s, r.value)
    ensures r.Some? ==> exists q :: p <= q <= |s| && Opens(s, q, r.value.start)
    decreases |s| - p
  {
    var r := MatchAt(s, p);
    if r.Some? then r
    else if p == |s| then None
    else SearchFrom(s, p + 1)
  }

  /** `parse_country_from_date(date_text)`: group 2 stripped, "" for empty
      text or no match. */
  function ParseCountry(s: string): (r: string)
    ensures s == "" ==> r == ""
    ensures Stripped(r)
    ensures forall k :: 0 <= k < |r| ==> r[k] != '\n'
    ensures r != "" ==> exists q :: 0 <= q <= |s| && LitAt(s, q, "reviewed in")
    ensures r != "" ==> exists q: nat, g: Span :: Opens(s, q, g.start) && GroupOk(s, g)
                                               && r == Strip(s[g.start..g.end])
  {
    if s == "" then ""
    else
      var m := SearchFrom(s, 0);
      match m
      case None => ""
      case Some(g) =>
        var t := s[g.start..g.end];
        StripWithin(t);
        Strip(t)
  }

  /** Text without "Reviewed in" (in any case) has no country. */
  lemma NoShapeNoCountry(s: string)
    requires forall q :: 0 <= q <= |s| ==> !LitAt(s, q, "reviewed in")
    ensures ParseCountry(s) == ""
  {
  }

  /** Text without a `\s+on\s+` tail anywhere, such as "Reviewed in
      Spain", has no country. */
  lemma NoTailNoCountry(s: string)
    requires forall q :: 0 <= q <= |s| ==> !TailAt(s, q)
    ensures ParseCountry(s) == ""
  {
  }

  const InPrefix: string := "Reviewed in "
  const ThePrefix: string := "Reviewed in the "
  const OnSep: string := " on "

  /** The country names the pattern reads whole: stripped, one line, and
      with no whitespace run followed by "on" and whitespace inside it
      (where the lazy group would stop early). */
  predicate PlainCountry(x: string) {
    x != [] && !IsSpace(x[0]) && !IsSpace(x[|x| - 1])
    && (forall k :: 0 <= k < |x| ==> x[k] != '\n')
    && forall e :: 0 < e < |x| ==> !TailAt(x + " ", e)
  }

  /** "Reviewed in the United States on January 1, 2024" gives
      "United States": the date line of a foreign review gives back the
      country between "the" and "on". */
  lemma ParseCountryOfDateLine(x: string, d: string)
    requires PlainCountry(x)
    ensures ParseCountry(ThePrefix + x + OnSep + d) == x
  {
    var s := ThePrefix + x + OnSep + d;
    DateLineOpening(s, x, d);
    CountryAtLine(s, ThePrefix, x, d);
    TheLineGroup(s, x);
  }

  /** The country after "Reviewed in the " is the captured group. */
  lemma TheLineGroup(s: string, x: string)
    requires PlainCountry(x)
    requires |s| > 16
    requires LitAt(s, 0, "reviewed in") && WsRun(s, 11) == 1
    requires LitAt(s, 12, "the") && WsRun(s, 15) == 1 && CountryAt(s, 16, x)
    ensures ParseCountry(s) == x
  {
    LazyReadsCountry(s, 16, x);
    SearchFindsGroup(s, 16 + |x|);
    ParseCountryIsGroup(s, 16, 16 + |x|);
    StrippedSlice(s, 16, x);
  }

  /** "Reviewed in Germany on January 1, 2024" gives "Germany": without
      "the", the optional group is skipped and the country is read from
      right after "in". A country that itself starts with the word "the"
      is not covered (the optional group would take that word). */
  lemma ParseCountryOfPlainDateLine(x: string, d: string)
    requires PlainCountry(x) && NoLeadingThe(x)
    ensures ParseCountry(InPrefix + x + OnSep + d) == x
  {
    var s := InPrefix + x + OnSep + d;
    InPrefixOpens(s, x, d);
    CountryAtLine(s, InPrefix, x, d);
    PlainLineGroup(s, x);
  }

  /** `x` does not begin with the word "the" (in any case). */
  predicate NoLeadingThe(x: string) {
    !(LitAt(x, 0, "the") && (|x| == 3 || IsSpace(x[3])))
  }

  lemma PlainLineGroup(s: string, x: string)
    requires PlainCountry(x) && NoLeadingThe(x)
    requires LitAt(s, 0, "reviewed in") && WsRun(s, 11) == 1 && CountryAt(s, 12, x)
    ensures ParseCountry(s) == x
  {
    NoTheBeforeCountry(s, x);
    LazyReadsCountry(s, 12, x);
    SearchSkipsThe(s, 12 + |x|);
    ParseCountryIsGroup(s, 12, 12 + |x|);
    StrippedSlice(s, 12, x);
  }

  /** "Reviewed in " opens the line, with one space after "in". */
  lemma InPrefixOpens(s: string, x: string, d: string)
    requires PlainCountry(x)
    requires s == InPrefix + x + OnSep + d
    ensures |s| > 12 && LitAt(s, 0, "reviewed in") && WsRun(s, 11) == 1
  {
    forall k | 0 <= k < 11 ensures LowerChar(s[k]) == "reviewed in"[k] {
      assert s[k] == InPrefix[k];
    }
    assert s[11] == ' ' && s[12] == x[0];
    assert WsRun(s, 12) == 0;
  }

  /** The optional `the\s+` finds nothing at the country. */
  lemma NoTheBeforeCountry(s: string, x: string)
    requires PlainCountry(x) && NoLeadingThe(x) && CountryAt(s, 12, x)
    ensures !LitAt(s, 12, "the") || WsRun(s, 15) == 0
  {
    var n := |x|;
    if n < 3 {
      assert LowerChar(s[12 + n]) != "the"[n];
    } else if LitAt(s, 12, "the") {
      assert LitAt(x, 0, "the");
      assert s[15] == x[3];
    }
  }

  /** `x` occurs in `s` at `o`. */
  predicate CopyAt(s: string, o: nat, x: string) {
    o + |x| <= |s| && forall k :: 0 <= k < |x| ==> s[o + k] == x[k]
  }

  lemma StrippedSlice(s: string, o: nat, x: string)
    requires x != [] && !IsSpace(x[0]) && !IsSpace(x[|x| - 1])
    requires CopyAt(s, o, x)
    ensures o + |x| <= |s| && Strip(s[o..o + |x|]) == x
  {
    SliceIsCountry(s, o, x);
    StripKeepsStripped(x);
  }

  lemma SliceIsCountry(s: string, o: nat, x: string)
    requires o + |x| <= |s| && forall k :: 0 <= k < |x| ==> s[o + k] == x[k]
    ensures s[o..o + |x|] == x
  {
  }

  lemma ParseCountryIsGroup(s: string, a: nat, b: nat)
    requires a <= b <= |s| && SearchFrom(s, 0) == Some(Span(a, b))
    ensures ParseCountry(s) == Strip(s[a..b])
  {
  }

  lemma SearchSkipsThe(s: string, e: nat)
    requires |s| > 12
    requires LitAt(s, 0, "reviewed in") && WsRun(s, 11) == 1
    requires !LitAt(s, 12, "the") || WsRun(s, 15) == 0
    requires Lazy(s, 12) == Some(Span(12, e))
    ensures SearchFrom(s, 0) == Some(Span(12, e))
  {
    assert OptThe(s, 12) == Some(Span(12, e));
    assert AfterIn(s, 11, 1) == Some(Span(12, e));
  }



  /** With "Reviewed in the " at the start and the lazy group ending at
      `e`, the first path the matcher tries succeeds. */
  lemma SearchFindsGroup(s: string, e: nat)
    requires |s| > 16
    requires LitAt(s, 0, "reviewed in") && WsRun(s, 11) == 1
    requires LitAt(s, 12, "the") && WsRun(s, 15) == 1
    requires Lazy(s, 16) == Some(Span(16, e))
    ensures SearchFrom(s, 0) == Some(Span(16, e))
  {
    assert AfterThe(s, 15, 1) == Some(Span(16, e));
    assert OptThe(s, 12) == Some(Span(16, e));
    assert AfterIn(s, 11, 1) == Some(Span(16, e));
  }

  /** "Reviewed in the " opens the line: one space after "in", "the", one
      space after it. */
  lemma DateLineOpening(s: string, x: string, d: string)
    requires PlainCountry(x)
    requires s == ThePrefix + x + OnSep + d
    ensures |s| > 16
    ensures LitAt(s, 0, "reviewed in") && WsRun(s, 11) == 1
    ensures LitAt(s, 12, "the") && WsRun(s, 15) == 1
  {
    assert s[..16] == ThePrefix;
    assert s[16] == x[0];
    ReviewedInOpens(s);
    TheFollows(s);
  }

  lemma ReviewedInOpens(s: string)
    requires |s| > 16 && s[..16] == ThePrefix
    ensures LitAt(s, 0, "reviewed in")
  {
    forall k | 0 <= k < 11 ensures LowerChar(s[k]) == "reviewed in"[k] {
      assert s[k] == ThePrefix[k];
    }
  }

  lemma TheFollows(s: string)
    requires |s| > 16 && s[..16] == ThePrefix && !IsSpace(s[16])
    ensures WsRun(s, 11) == 1 && LitAt(s, 12, "the") && WsRun(s, 15) == 1
  {
    assert s[11] == ThePrefix[11] && s[12] == ThePrefix[12] && s[13] == ThePrefix[13];
    assert s[14] == ThePrefix[14] && s[15] == ThePrefix[15];
    assert WsRun(s, 12) == 0;
    assert WsRun(s, 16) == 0;
  }

  /** `x` followed by " on " sits at offset `o` of `s`. */
  predicate CountryAt(s: string, o: nat, x: string) {
    o + |x| + 4 <= |s|
    && (forall k :: 0 <= k < |x| ==> s[o + k] == x[k])
    && s[o + |x|] == ' ' && s[o + |x| + 1] == 'o' && s[o + |x| + 2] == 'n' && s[o + |x| + 3] == ' '
  }

  lemma CountryAtLine(s: string, pre: string, x: string, d: string)
    requires s == pre + x + OnSep + d
    ensures CountryAt(s, |pre|, x)
  {
    assert s[|pre|..|pre| + |x|] == x;
    assert s[|pre| + |x|..|pre| + |x| + 4] == OnSep;
  }

  /** The lazy group started at the country stops right before " on ". */
  lemma LazyReadsCountry(s: string, o: nat, x: string)
    requires PlainCountry(x) && CountryAt(s, o, x)
    ensures Lazy(s, o) == Some(Span(o, o + |x|))
  {
    var n := |x|;
    CountryOneLine(s, o, x);
    TailAfterCountry(s, o, x);
    NoTailInside(s, o, x);
    LazyFromReaches(s, o, o + 1, o + n);
  }

  lemma NoTailInside(s: string, o: nat, x: string)
    requires PlainCountry(x) && CountryAt(s, o, x)
    ensures forall e :: o + 1 <= e < o + |x| ==> !TailAt(s, e)
  {
    forall e | o + 1 <= e < o + |x| ensures !TailAt(s, e) {
      TailInside(s, o, x, e);
    }
  }

  lemma CountryOneLine(s: string, o: nat, x: string)
    requires PlainCountry(x) && CountryAt(s, o, x)
    ensures forall k :: o <= k < o + |x| ==> s[k] != '\n'
  {
    forall k | o <= k < o + |x| ensures s[k] != '\n' {
      assert s[k] == x[k - o];
    }
  }

  /** The " on " right after the country is the tail. */
  lemma TailAfterCountry(s: string, o: nat, x: string)
    requires CountryAt(s, o, x)
    ensures TailAt(s, o + |x|)
  {
    var n := |x|;
    assert WsRun(s, o + n + 1) == 0;
    assert WsRun(s, o + n) == 1;
    assert LitAt(s, o + n + 1, "on");
  }

  /** A tail inside the country text would also be one in `x + " "`. */
  lemma TailInside(s: string, o: nat, x: string, e: nat)
    requires PlainCountry(x) && CountryAt(s, o, x)
    requires o + 1 <= e < o + |x|
    ensures !TailAt(s, e)
  {
    var xs := x + " ";
    assert forall k :: 0 <= k < |xs| ==> s[o + k] == xs[k];
    TailWithin(s, xs, o, e - o);
  }

  /** A tail starting strictly inside a window of `s` that ends with a
      non-space followed by a space lies in the window. */
  lemma TailWithin(s: string, t: string, off: nat, q: nat)
    requires 2 <= |t| && off + |t| <= |s|
    requires forall k :: 0 <= k < |t| ==> s[off + k] == t[k]
    requires !IsSpace(t[|t| - 2]) && t[|t| - 1] == ' '
    requires q < |t| - 1
    ensures TailAt(s, off + q) ==> TailAt(t, q)
  {
    WsRunSame(s, t, off, q, |t| - 2);
    if TailAt(s, off + q) {
      TailCopied(s, t, off, q);
    }
  }

  lemma TailCopied(s: string, t: string, off: nat, q: nat)
    requires 2 <= |t| && off + |t| <= |s|
    requires forall k :: 0 <= k < |t| ==> s[off + k] == t[k]
    requires q < |t| - 1 && t[|t| - 1] == ' '
    requires WsRun(s, off + q) == WsRun(t, q) && q + WsRun(t, q) <= |t| - 2
    requires TailAt(s, off + q)
    ensures TailAt(t, q)
  {
    var r := WsRun(t, q);
    assert LowerChar(s[off + q + r + 1]) == "on"[1];
    if q + r + 1 == |t| - 1 {
      assert false;
    }
    assert LitAt(t, q + r, "on") by {
      assert t[q + r] == s[off + q + r] && t[q + r + 1] == s[off + q + r + 1];
    }
    assert t[q + r + 2] == s[off + q + r + 2];
  }

  /** The whitespace run at `q` is the same in two texts that agree from `q`
      up to a non-space character at `stop`. */
  lemma {:induction false} WsRunSame(s: string, t: string, off: nat, q: nat, stop: nat)
    requires q <= stop < |t| && off + stop < |s|
    requires forall k :: q <= k <= stop ==> s[off + k] == t[k]
    requires !IsSpace(t[stop])
    ensures WsRun(s, off + q) == WsRun(t, q)
    ensures q + WsRun(t, q) <= stop
    decreases stop - q
  {
    if IsSpace(t[q]) {
      WsRunSame(s, t, off, q + 1, stop);
    }
  }

  /** Growing the lazy group from `e` reaches `stop` when no earlier end is
      followed by the tail. */
  lemma {:induction false} LazyFromReaches(s: string, g: nat, e: nat, stop: nat)
    requires g < e <= stop <= |s|
    requires forall k :: g <= k < stop ==> s[k] != '\n'
    requires forall x :: e <= x < stop ==> !TailAt(s, x)
    requires TailAt(s, stop)
    ensures LazyFrom(s, g, e) == Some(Span(g, stop))
    decreases stop - e
  {
    if e < stop {
      LazyFromReaches(s, g, e + 1, stop);
    }
  }

  lemma StripKeepsStripped(x: string)
    requires x != [] && !IsSpace(x[0]) && !IsSpace(x[|x| - 1])
    ensures Strip(x) == x
  {
  }

  /** What strip leaves of `t` lies inside `t`, so it has no '\n' when `t`
      has none. */
  lemma StripWithin(t: string)
    requires forall k :: 0 <= k < |t| ==> t[k] != '\n'
    ensures forall k :: 0 <= k < |Strip(t)| ==> Strip(t)[k] != '\n'
  {
    var a, b := StripSlice(t);
    SliceKeepsNoNewline(t, a, b);
  }

  lemma SliceKeepsNoNewline(t: string, a: nat, b: nat)
    requires a <= b <= |t|
    requires forall k :: 0 <= k < |t| ==> t[k] != '\n'
    ensures forall k :: 0 <= k < b - a ==> t[a..b][k] != '\n'
  {
    forall k | 0 <= k < b - a ensures t[a..b][k] != '\n' {
      assert t[a..b][k] == t[a + k];
    }
  }
}

=== FILE: details.dfy ===
/** `scrape_product_details` (Selenium_Amazon.py:579-653) and the
    warranty block it reads (`scrape_warranty_support`, :89-134): one visit
    to a product page, which gathers the link, the rating texts, the
    warranty and the domestic and foreign reviews, and falls back from the
    listing pages to the blocks on the product page.

    The product page is data: every read the visit makes is a field of
    `ProductPage`. A raise that no inner `try` catches turns the whole visit
    into the "Error loading" record. */
module Details {
  import opened Wrappers
  import opened Text
  import opened Resolver
  import opened Collect
  import opened AmazonUrls
  import opened ShareLink
  import opened Reviews

  /** What one visit to a product page reads.
      - `loadFails`: a navigation the visit makes outside any inner `try`
        raised (the product page itself, the reviews page, or the return to
        the product page before an inline fallback).
      - `linkSetupFails`, `pastes`, `linkCurrent`: what `get_product_link`
        sees (see ShareLink).
      - `ratingReads`, `countReads`: the text read by each locator of the
        overall rating and of the number of ratings.
      - `headingReads`, `bodyReads`: the same for the warranty heading and
        body.
      - `reviewsCurrent`: the URL after clicking the ratings link, None when
        `open_reviews_page_from_product` caught a raise.
      - `reviewPages`: the domestic reviews listing, page by page.
      - `inlineDomestic`: the review blocks of the product page (None when
        the lookup raised).
      - `foreignCurrent`, `globalFollowed`, `globalPages`, `foreignOnPage`:
        what `scrape_foreign_reviews_from_reviews_page` sees: the current
        URL, whether a link to the global reviews could be followed, the
        global listing, and the foreign blocks of the current page.
      - `inlineForeign`: the foreign blocks of the product page. */
  datatype ProductPage = ProductPage(
    loadFails: bool,
    linkSetupFails: bool,
    pastes: seq<Option<string>>,
    linkCurrent: string,
    ratingReads: seq<Option<string>>,
    countReads: seq<Option<string>>,
    headingReads: seq<Option<string>>,
    bodyReads: seq<Option<string>>,
    reviewsCurrent: Option<string>,
    reviewPages: seq<Page>,
    inlineDomestic: Option<seq<Block>>,
    foreignCurrent: string,
    globalFollowed: bool,
    globalPages: seq<Page>,
    foreignOnPage: Option<seq<Block>>,
    inlineForeign: Option<seq<Block>>)

  /** The page and review limits of one visit. */
  datatype Limits = Limits(reviewPages: int, reviews: int, foreignPages: int, foreignReviews: int)

  /** The keyword defaults of `scrape_product_details`. */
  const DefaultLimits: Limits := Limits(5, 300, 3, 200)

  /** The dict the visit returns. */
  datatype Details = Details(
    overallRating: string,
    numRatings: string,
    reviewsFull: seq<Review>,
    reviewsForeign: seq<Review>,
    productLink: string,
    warrantyHeading: string,
    warrantyText: string)

  const NotFound: string := "Not found"
  const ErrorLoading: string := "Error loading"

  /** The record of a visit that raised. */
  const ErrorDetails: Details :=
    Details(ErrorLoading, ErrorLoading, [], [], ErrorLoading, ErrorLoading, ErrorLoading)

  /** `"Not found"` for an empty text. */
  function OrNotFound(s: string): string {
    if s != "" then s else NotFound
  }

  /** The overall-rating check: the text mentions "out of" or "star". */
  predicate RatingOk(t: string) {
    t != "" && (Contains(Lower(t), "out of") || Contains(Lower(t), "star"))
  }

  /** The ratings-count check: the text mentions "rating" or "review". */
  predicate CountOk(t: string) {
    t != "" && (Contains(Lower(t), "rating") || Contains(Lower(t), "review"))
  }

  function OverallRating(texts: seq<Option<string>>): string {
    OrNotFound(FirstValid(StripReads(texts), RatingOk).GetOr(""))
  }

  function NumRatings(texts: seq<Option<string>>): string {
    OrNotFound(FirstValid(StripReads(texts), CountOk).GetOr(""))
  }

  // Warranty

  /** `re.sub(r"\s+", " ", s).strip()`. */
  function Normalise(s: string): string {
    Strip(SubstituteSpaceRuns(s, " "))
  }

  /** The body check: more than five characters. */
  predicate BodyOk(t: string) {
    t != "" && |t| > 5
  }

  /** The body loop assigns before it checks, so when no locator passes
      the body is the last text read, short or not. */
  function RawBody(texts: seq<Option<string>>): string {
    match FirstValid(StripReads(texts), BodyOk)
    case Some(v) => v
    case None => LastRead(StripReads(texts), "")
  }

  function WarrantyHeading(texts: seq<Option<string>>): string {
    OrNotFound(Normalise(Field(texts)))
  }

  function WarrantyText(texts: seq<Option<string>>): string {
    OrNotFound(Normalise(RawBody(texts)))
  }

  /** `scrape_warranty_support`: the two fallback loops (both assign before
      they check) and the normalisation. */
  method ScrapeWarranty(headingReads: seq<Option<string>>, bodyReads: seq<Option<string>>)
    returns (heading: string, body: string)
    ensures heading == WarrantyHeading(headingReads)
    ensures body == WarrantyText(bodyReads)
  {
    var h := ReadUntilValid(StripReads(headingReads), NonEmpty, "");
    LoopShapesAgree(StripReads(headingReads), NonEmpty, "");
    var b := ReadUntilValid(StripReads(bodyReads), BodyOk, "");
    h := Normalise(h);
    b := Normalise(b);
    heading := if h != "" then h else NotFound;
    body := if b != "" then b else NotFound;
  }

  // Reviews of the visit

  /** The reviews page `open_reviews_page_from_product` settles on. */
  function ReviewsPage(productUrl: string, p: ProductPage): Option<string> {
    ReviewsPageUrl(productUrl, p.reviewsCurrent)
  }

  /** The domestic listing's reviews ([] without a reviews page). */
  function PagedDomestic(productUrl: string, p: ProductPage, lim: Limits): seq<Review> {
    if ReviewsPage(productUrl, p).GetOr("") == "" then []
    else Take(PagesReviews(p.reviewPages, Visited(p.reviewPages, lim.reviewPages), ExtractDomestic), Cap(lim.reviews))
  }

  /** The inline domestic fallback. */
  function InlineDomestic(p: ProductPage, lim: Limits): seq<Review> {
    match p.inlineDomestic
    case None => []
    case Some(bs) => FilterMap(PyPrefix(bs, lim.reviews), ExtractDomestic)
  }

  /** The domestic reviews: the listing's, else the product page's. */
  function Domestic(productUrl: string, p: ProductPage, lim: Limits): seq<Review> {
    var paged := PagedDomestic(productUrl, p, lim);
    if paged != [] then paged else InlineDomestic(p, lim)
  }

  /** `scrape_foreign_reviews_from_reviews_page`, None when it raised. */
  function ListedForeign(p: ProductPage, lim: Limits): Option<seq<Review>> {
    if Contains(p.foreignCurrent, GlobalTag) || p.globalFollowed then
      Some(Take(PagesReviews(p.globalPages, Visited(p.globalPages, lim.foreignPages), ExtractForeign), Cap(lim.foreignReviews)))
    else
      match p.foreignOnPage
      case None => None
      case Some(bs) => Some(FilterMap(PyPrefix(bs, lim.foreignReviews), ExtractForeign))
  }

  /** The foreign reviews, None when a lookup raised: the global listing
      (only when there is a reviews page), else the product page's foreign
      blocks. */
  function Foreign(productUrl: string, p: ProductPage, lim: Limits): Option<seq<Review>> {
    var listed := if ReviewsPage(productUrl, p).Some? then ListedForeign(p, lim) else Some([]);
    match listed
    case None => None
    case Some(rs) =>
      if rs != [] then listed
      else
        match p.inlineForeign
        case None => None
        case Some(bs) => Some(FilterMap(PyPrefix(bs, lim.foreignReviews), ExtractForeign))
  }

  /** The visit's record, None when it raised. */
  function Visit(productUrl: string, p: ProductPage, lim: Limits): Option<Details> {
    if p.loadFails then None
    else
      match Foreign(productUrl, p, lim)
      case None => None
      case Some(foreign) =>
        Some(Details(
          OverallRating(p.ratingReads),
          NumRatings(p.countReads),
          Domestic(productUrl, p, lim),
          foreign,
          ProductLink(p.linkSetupFails, p.pastes, p.linkCurrent),
          WarrantyHeading(p.headingReads),
          WarrantyText(p.bodyReads)))
  }

  /** What `scrape_product_details` returns. */
  function DetailsOf(productUrl: string, p: ProductPage, lim: Limits): Details {
    Visit(productUrl, p, lim).GetOr(ErrorDetails)
  }

  /** The domestic half of the visit: the listing, then the inline
      fallback. */
  method ScrapeDomestic(productUrl: string, p: ProductPage, lim: Limits) returns (domestic: seq<Review>)
    ensures domestic == Domestic(productUrl, p, lim)
  {
    var reviewsUrl := ReviewsPage(productUrl, p);
    domestic := ScrapeFullReviews(reviewsUrl.GetOr(""), p.reviewPages, lim.reviewPages, lim.reviews);
    if domestic == [] {
      domestic := ScrapeInlineDomestic(p.inlineDomestic, lim.reviews);
    }
  }

  /** The foreign half of the visit: the global listing when there is a
      reviews page, then the inline fallback; None when a lookup raised. */
  method ScrapeForeign(productUrl: string, p: ProductPage, lim: Limits) returns (foreign: Option<seq<Review>>)
    ensures foreign == Foreign(productUrl, p, lim)
  {
    var found: seq<Review> := [];
    if ReviewsPage(productUrl, p).Some? {
      var listed := ScrapeForeignReviews(p.foreignCurrent, p.globalFollowed, p.globalPages,
                                         p.foreignOnPage, lim.foreignPages, lim.foreignReviews);
      if listed.None? {
        return None;
      }
      found := listed.value;
    }
    if found == [] {
      foreign := ScrapeInlineForeign(p.inlineForeign, lim.foreignReviews);
    } else {
      foreign := Some(found);
    }
  }

  /** The visit, step by step, as the source makes it. */
  method ScrapeProductDetails(productUrl: string, p: ProductPage, lim: Limits) returns (d: Details)
    ensures d == DetailsOf(productUrl, p, lim)
  {
    if p.loadFails {
      return ErrorDetails;
    }
    var link := GetProductLink(p.linkSetupFails, p.pastes, p.linkCurrent);
    var rating := ResolveFirst(StripReads(p.ratingReads), RatingOk, "");
    var count := ResolveFirst(StripReads(p.countReads), CountOk, "");
    var heading, body := ScrapeWarranty(p.headingReads, p.bodyReads);
    var domestic := ScrapeDomestic(productUrl, p, lim);
    var foreign := ScrapeForeign(productUrl, p, lim);
    if foreign.None? {
      return ErrorDetails;
    }
    d := Details(if rating != "" then rating else NotFound,
                 if count != "" then count else NotFound,
                 domestic, foreign.value, link, heading, body);
  }

  // Properties

  /** Every text field of a completed visit is filled: each is the text
      that passed its field's check, or "Not found"; the warranty texts are
      stripped. */
  lemma VisitFields(productUrl: string, p: ProductPage, lim: Limits)
    requires Visit(productUrl, p, lim).Some?
    ensures var d := Visit(productUrl, p, lim).value;
            (d.overallRating == NotFound || RatingOk(d.overallRating))
            && (d.numRatings == NotFound || CountOk(d.numRatings))
            && d.warrantyHeading != "" && Stripped(d.warrantyHeading)
            && d.warrantyText != "" && Stripped(d.warrantyText)
  {
    var d := Visit(productUrl, p, lim).value;
    assert d.overallRating == OverallRating(p.ratingReads);
    assert d.numRatings == NumRatings(p.countReads);
    assert d.warrantyHeading == OrNotFound(Normalise(Field(p.headingReads)));
    assert d.warrantyText == OrNotFound(Normalise(RawBody(p.bodyReads)));
    NotFoundStripped();
    OrNotFoundFilled(Normalise(Field(p.headingReads)));
    OrNotFoundFilled(Normalise(RawBody(p.bodyReads)));
  }

  lemma NotFoundStripped()
    ensures Stripped(NotFound)
  {
    assert NotFound[0] == 'N' && NotFound[|NotFound| - 1] == 'd';
  }

  lemma OrNotFoundFilled(s: string)
    requires Stripped(s) && Stripped(NotFound)
    ensures OrNotFound(s) != "" && Stripped(OrNotFound(s))
  {
  }

  /** A raise anywhere outside the inner `try` blocks gives the error
      record, with no reviews. */
  lemma FailedVisitIsError(productUrl: string, p: ProductPage, lim: Limits)
    requires p.loadFails || Foreign(productUrl, p, lim).None?
    ensures DetailsOf(productUrl, p, lim) == ErrorDetails
    ensures DetailsOf(productUrl, p, lim).reviewsFull == [] && DetailsOf(productUrl, p, lim).reviewsForeign == []
  {
  }

  /** Every domestic review has a stripped, non-empty text and no origin;
      every foreign review carries the country of its own date line. */
  lemma DetailsReviewsGood(productUrl: string, p: ProductPage, lim: Limits)
    ensures var d := DetailsOf(productUrl, p, lim);
            (forall k :: 0 <= k < |d.reviewsFull| ==> GoodDomestic(d.reviewsFull[k]))
            && (forall k :: 0 <= k < |d.reviewsForeign| ==> GoodForeign(d.reviewsForeign[k]))
  {
    DomesticAllGood();
    ForeignAllGood();
    DomesticGood(productUrl, p, lim);
    ForeignGood(productUrl, p, lim);
  }

  lemma DomesticGood(productUrl: string, p: ProductPage, lim: Limits)
    requires forall b :: ExtractDomestic(b).Some? ==> GoodDomestic(ExtractDomestic(b).value)
    ensures var ds := Domestic(productUrl, p, lim);
            forall k :: 0 <= k < |ds| ==> GoodDomestic(ds[k])
  {
    var all := PagesReviews(p.reviewPages, Visited(p.reviewPages, lim.reviewPages), ExtractDomestic);
    PagesReviewsAll(p.reviewPages, Visited(p.reviewPages, lim.reviewPages), ExtractDomestic, GoodDomestic);
    AllTake(all, Cap(lim.reviews), GoodDomestic);
    if p.inlineDomestic.Some? {
      FilterMapAll(PyPrefix(p.inlineDomestic.value, lim.reviews), ExtractDomestic, GoodDomestic);
    }
  }

  lemma ForeignGood(productUrl: string, p: ProductPage, lim: Limits)
    requires forall b :: ExtractForeign(b).Some? ==> GoodForeign(ExtractForeign(b).value)
    ensures var fs := Foreign(productUrl, p, lim);
            fs.Some? ==> forall k :: 0 <= k < |fs.value| ==> GoodForeign(fs.value[k])
  {
    var all := PagesReviews(p.globalPages, Visited(p.globalPages, lim.foreignPages), ExtractForeign);
    PagesReviewsAll(p.globalPages, Visited(p.globalPages, lim.foreignPages), ExtractForeign, GoodForeign);
    AllTake(all, Cap(lim.foreignReviews), GoodForeign);
    if p.foreignOnPage.Some? {
      FilterMapAll(PyPrefix(p.foreignOnPage.value, lim.foreignReviews), ExtractForeign, GoodForeign);
    }
    if p.inlineForeign.Some? {
      FilterMapAll(PyPrefix(p.inlineForeign.value, lim.foreignReviews), ExtractForeign, GoodForeign);
    }
  }

  /** With a non-negative limit, a visit never returns more reviews than
      `Cap` of the limit, whichever route they came by: the limit itself
      when it is at least 1, one review when it is 0 (the paged loops
      append before they test the bound). */
  lemma ReviewCountsBounded(productUrl: string, p: ProductPage, lim: Limits)
    requires lim.reviews >= 0 && lim.foreignReviews >= 0
    ensures |DetailsOf(productUrl, p, lim).reviewsFull| <= Cap(lim.reviews)
    ensures |DetailsOf(productUrl, p, lim).reviewsForeign| <= Cap(lim.foreignReviews)
  {
    if Visit(productUrl, p, lim).Some? {
      var d := Visit(productUrl, p, lim).value;
      assert d.reviewsFull == Domestic(productUrl, p, lim);
      assert d.reviewsForeign == Foreign(productUrl, p, lim).value;
      DomesticBounded(productUrl, p, lim);
      ForeignBounded(productUrl, p, lim);
    }
  }

  /** At the keyword defaults a visit keeps at most 300 domestic and 200
      foreign reviews. */
  lemma DefaultReviewCounts(productUrl: string, p: ProductPage)
    ensures |DetailsOf(productUrl, p, DefaultLimits).reviewsFull| <= 300
    ensures |DetailsOf(productUrl, p, DefaultLimits).reviewsForeign| <= 200
  {
    ReviewCountsBounded(productUrl, p, DefaultLimits);
  }

  lemma DomesticBounded(productUrl: string, p: ProductPage, lim: Limits)
    requires lim.reviews >= 0
    ensures |Domestic(productUrl, p, lim)| <= Cap(lim.reviews)
  {
    if p.inlineDomestic.Some? {
      InlineBounded(p.inlineDomestic.value, lim.reviews, ExtractDomestic);
    }
  }

  lemma ForeignBounded(productUrl: string, p: ProductPage, lim: Limits)
    requires lim.foreignReviews >= 0
    ensures Foreign(productUrl, p, lim).Some? ==> |Foreign(productUrl, p, lim).value| <= Cap(lim.foreignReviews)
  {
    if p.foreignOnPage.Some? {
      InlineBounded(p.foreignOnPage.value, lim.foreignReviews, ExtractForeign);
    }
    if p.inlineForeign.Some? {
      InlineBounded(p.inlineForeign.value, lim.foreignReviews, ExtractForeign);
    }
  }

  /** An inline collector with a non-negative limit gives at most that
      many records. */
  lemma InlineBounded(bs: seq<Block>, limit: int, f: Block -> Option<Review>)
    requires limit >= 0
    ensures |FilterMap(PyPrefix(bs, limit), f)| <= limit
  {
  }

  /** The product page's blocks are used for the domestic reviews exactly
      when the reviews listing gave none. */
  lemma DomesticFallback(productUrl: string, p: ProductPage, lim: Limits)
    requires !p.loadFails && Foreign(productUrl, p, lim).Some?
    ensures var d := DetailsOf(productUrl, p, lim);
            (PagedDomestic(productUrl, p, lim) != [] ==> d.reviewsFull == PagedDomestic(productUrl, p, lim))
            && (PagedDomestic(productUrl, p, lim) == [] ==> d.reviewsFull == InlineDomestic(p, lim))
    ensures ReviewsPage(productUrl, p).None? ==> DetailsOf(productUrl, p, lim).reviewsFull == InlineDomestic(p, lim)
  {
  }

  /** Without a reviews page the global listing is never consulted: the
      foreign reviews are the product page's foreign blocks. */
  lemma ForeignWithoutReviewsPage(productUrl: string, p: ProductPage, lim: Limits)
    requires !p.loadFails && ReviewsPage(productUrl, p).None? && p.inlineForeign.Some?
    ensures DetailsOf(productUrl, p, lim).reviewsForeign
            == FilterMap(PyPrefix(p.inlineForeign.value, lim.foreignReviews), ExtractForeign)
  {
  }

  /** The warranty body is checked for length, but the loop keeps what it
      read last when no locator passes: a short body such as "abc", read by
      the only locator that found anything, is returned, not "Not found". */
  lemma WarrantyKeepsShortLastBody(x: string)
    requires x != "" && |x| <= 5 && NoSpace(x)
    ensures WarrantyText([Some(x)]) == x
  {
    var r := StripReads([Some(x)]);
    StripKeepsNoSpace(x);
    assert r[0] == Some(x);
    assert !PassesAt(r, BodyOk, 0);
    FirstValidIndexIs(r, BodyOk, 1);
    assert LastRead(r, "") == x;
    SubstituteSpaceRunsNoSpace(x, " ");
  }

  /** When every body read fails the check, the body is the last text
      read, normalised. */
  lemma WarrantyBodyIsLastRead(texts: seq<Option<string>>)
    requires forall i :: 0 <= i < |texts| ==> !PassesAt(StripReads(texts), BodyOk, i)
    ensures WarrantyText(texts) == OrNotFound(Normalise(LastRead(StripReads(texts), "")))
  {
    FirstValidIndexIs(StripReads(texts), BodyOk, |texts|);
  }

  /** A heading is found exactly when some locator read a non-blank text. */
  lemma WarrantyHeadingFound(texts: seq<Option<string>>)
    ensures WarrantyHeading(texts) == NotFound ||
              exists i :: 0 <= i < |texts| && texts[i].Some? && Strip(texts[i].value) != ""
    ensures (forall i :: 0 <= i < |texts| ==> texts[i].None? || Strip(texts[i].value) == "")
              ==> WarrantyHeading(texts) == NotFound
  {
    FieldIsFirstRead(texts);
    if Field(texts) == "" {
      assert SubstituteSpaceRuns("", " ") == "";
    }
  }
}

=== FILE: ebay_results.dfy ===
/** The card loop of `scrape_results_basic` (Selenium_eBay.py:273-303):
    each result card gives a row of title, price and English link, in card
    order, until `max_products` rows are held.

    The results page is data: for each card selector, the cards it found
    (None when the lookup raised); for each card, what each anchor selector
    found, the title element, and what each price selector read. */
module EbayResults {
  import opened Wrappers
  import opened Text
  import opened Resolver
  import opened Collect
  import opened EbayUrls

  /** A located element: its `.text`, its `textContent` attribute and its
      split `href` (None when it has none). */
  datatype Elem = Elem(text: string, textContent: Option<string>, href: Option<ParsedUrl>)

  /** One result card. `stale` says that a read outside the inner `try`
      blocks raised (the card is then skipped); `anchors[i]` is the element
      anchor selector i found, None when it raised; `titleEl` is the
      `h3.s-item__title` element; `prices[i]` is the text price selector i
      read. */
  datatype Card = Card(
    stale: bool,
    anchors: seq<Option<Elem>>,
    titleEl: Option<Elem>,
    prices: seq<Option<string>>)

  /** The dict appended per card. */
  datatype ResultRow = ResultRow(title: string, price: string, url: ParsedUrl)

  /** `(el.text or el.get_attribute("textContent") or "").strip()`. */
  function VisibleText(e: Elem): string {
    Strip(if e.text != "" then e.text else e.textContent.GetOr(""))
  }

  /** Any element the anchor loop finds ends it. */
  predicate Found(e: Elem) {
    true
  }

  /** The anchor loop's element: the first selector that did not raise. */
  function AnchorOf(c: Card): Option<Elem> {
    FirstValid(c.anchors, Found)
  }

  /** The row a card gives, None when it is skipped. */
  function CardRow(c: Card): Option<ResultRow> {
    if c.stale then None
    else
      match AnchorOf(c)
      case None => None
      case Some(a) =>
        var title := VisibleText(c.titleEl.GetOr(a));
        if title == "" then None
        else Some(ResultRow(title, Field(c.prices), ForceEnglish(a.href.GetOr(EmptyUrl))))
  }

  /** The anchor loop: `a = find_element(sel); break`, skipping raises. */
  method FindAnchor(anchors: seq<Option<Elem>>) returns (a: Option<Elem>)
    ensures a == FirstValid(anchors, Found)
  {
    var i := 0;
    while i < |anchors|
      invariant 0 <= i <= |anchors|
      invariant forall j :: 0 <= j < i ==> !PassesAt(anchors, Found, j)
    {
      if anchors[i].Some? {
        FirstValidIndexIs(anchors, Found, i);
        return anchors[i];
      }
      i := i + 1;
    }
    FirstValidIndexIs(anchors, Found, i);
    return None;
  }

  /** The body of one card iteration. */
  method ReadCard(c: Card) returns (row: Option<ResultRow>)
    ensures row == CardRow(c)
  {
    if c.stale {
      return None;
    }
    var a := FindAnchor(c.anchors);
    if a.None? {
      return None;
    }
    var titleEl := if c.titleEl.Some? then c.titleEl.value else a.value;
    var title := VisibleText(titleEl);
    if title == "" {
      return None;
    }
    var url := ForceEnglishUrl(a.value.href.GetOr(EmptyUrl));
    var price := ReadField(c.prices);
    row := Some(ResultRow(title, price, url));
  }

  predicate NonEmptyCards(cs: seq<Card>) {
    cs != []
  }

  /** The cards the container loop settles on. */
  function CardsOf(containers: seq<Option<seq<Card>>>): seq<Card> {
    FirstValid(containers, NonEmptyCards).GetOr([])
  }

  /** `scrape_results_basic`: the container loop (assign, then check), then
      the card loop. */
  method ScrapeResultsBasic(containers: seq<Option<seq<Card>>>, maxProducts: int) returns (rows: seq<ResultRow>)
    ensures rows == Take(FilterMap(CardsOf(containers), CardRow), Cap(maxProducts))
  {
    var cards := ReadUntilValid(containers, NonEmptyCards, []);
    LoopShapesAgree(containers, NonEmptyCards, []);
    rows := CollectRows(cards, maxProducts);
  }

  /** The card loop: each card's row appended, stopping once
      `max_products` are held. */
  method CollectRows(cards: seq<Card>, maxProducts: int) returns (rows: seq<ResultRow>)
    ensures rows == Take(FilterMap(cards, CardRow), Cap(maxProducts))
  {
    rows := [];
    for i := 0 to |cards|
      invariant rows == FilterMap(cards[..i], CardRow)
      invariant |rows| < Cap(maxProducts)
    {
      var row := ReadCard(cards[i]);
      RowsStep(cards, i, rows, row);
      if row.Some? {
        rows := rows + [row.value];
        if |rows| >= maxProducts {
          RowsBound(cards, i + 1, rows, Cap(maxProducts));
          return;
        }
      }
    }
    RowsAll(cards, rows, Cap(maxProducts));
  }

  lemma RowsAll(cards: seq<Card>, rows: seq<ResultRow>, n: nat)
    requires rows == FilterMap(cards[..|cards|], CardRow) && |rows| < n
    ensures rows == Take(FilterMap(cards, CardRow), n)
  {
    assert cards[..|cards|] == cards;
  }

  lemma RowsStep(cards: seq<Card>, i: nat, rows: seq<ResultRow>, row: Option<ResultRow>)
    requires i < |cards| && rows == FilterMap(cards[..i], CardRow) && row == CardRow(cards[i])
    ensures FilterMap(cards[..i + 1], CardRow) == if row.Some? then rows + [row.value] else rows
  {
    FilterMapStep(cards, i, CardRow);
  }

  lemma RowsBound(cards: seq<Card>, i: nat, rows: seq<ResultRow>, n: nat)
    requires i <= |cards| && rows == FilterMap(cards[..i], CardRow) && |rows| == n
    ensures rows == Take(FilterMap(cards, CardRow), n)
  {
    TakeAtBound(cards, i, CardRow, n);
  }

  // Properties

  /** A card without any anchor, or whose title is blank, gives no row. */
  lemma SkippedCards(c: Card)
    ensures (forall i :: 0 <= i < |c.anchors| ==> c.anchors[i].None?) ==> CardRow(c).None?
    ensures AnchorOf(c).Some? && VisibleText(c.titleEl.GetOr(AnchorOf(c).value)) == "" ==> CardRow(c).None?
  {
    if forall i :: 0 <= i < |c.anchors| ==> c.anchors[i].None? {
      assert forall i :: 0 <= i < |c.anchors| ==> !PassesAt(c.anchors, Found, i);
    }
  }

  /** Without an `h3` title element, the title is the anchor's own text. */
  lemma TitleFallsBackToAnchor(c: Card, a: Elem)
    requires !c.stale && c.titleEl.None? && AnchorOf(c) == Some(a) && VisibleText(a) != ""
    ensures CardRow(c).Some? && CardRow(c).value.title == VisibleText(a)
  {
  }

  /** A row's title is stripped and non-empty; its price is the first
      non-blank price read, "" when there is none; its link is the anchor's
      href with `_lang=en-us` forced in. */
  lemma RowFields(c: Card)
    requires CardRow(c).Some?
    ensures var r := CardRow(c).value;
            var a := AnchorOf(c).value;
            r.title != "" && Stripped(r.title)
            && (r.price == "" <==> forall i :: 0 <= i < |c.prices| ==> c.prices[i].None? || Strip(c.prices[i].value) == "")
            && r.url == ForceEnglish(a.href.GetOr(EmptyUrl))
            && (r.url.Parsed? ==> Get(r.url.url.query, LangKey) == Some(English))
  {
    FieldIsFirstRead(c.prices);
    var u := AnchorOf(c).value.href.GetOr(EmptyUrl);
    if u.Parsed? {
      ForceEnglishQuery(u.url, LangKey);
    }
  }

  /** Every row is the row of some card; with a positive bound there are
      at most `max_products` rows. */
  lemma RowsFromCards(containers: seq<Option<seq<Card>>>, maxProducts: int, k: nat)
    requires k < |Take(FilterMap(CardsOf(containers), CardRow), Cap(maxProducts))|
    ensures exists i :: 0 <= i < |CardsOf(containers)|
              && CardRow(CardsOf(containers)[i]) == Some(Take(FilterMap(CardsOf(containers), CardRow), Cap(maxProducts))[k])
    ensures maxProducts >= 1 ==> |Take(FilterMap(CardsOf(containers), CardRow), Cap(maxProducts))| <= maxProducts
  {
    var all := FilterMap(CardsOf(containers), CardRow);
    assert Take(all, Cap(maxProducts))[k] == all[k];
    FilterMapFrom(CardsOf(containers), CardRow, k);
  }

  /** Rows come in card order: the cards after a prefix never change the
      rows of that prefix, they can only add rows after them. */
  lemma RowsInCardOrder(cards: seq<Card>, more: seq<Card>)
    ensures FilterMap(cards + more, CardRow) == FilterMap(cards, CardRow) + FilterMap(more, CardRow)
  {
    FilterMapAppend(cards, more, CardRow);
  }

  /** A link without an href still gets `_lang=en-us` and nothing else. */
  lemma MissingHrefGetsLang()
    ensures ForceEnglish(EmptyUrl) == Parsed(Url("", "", "", "", [(LangKey, English)], ""))
  {
  }
}

=== FILE: ebay_urls.dfy ===
/** `force_english_url` (Selenium_eBay.py:41-48): the query of a result
    link is read into a dict, `_lang` is set to "en-us", and the link is put
    back together.

    A URL is taken already split into its six components, with the query as
    its decoded (key, value) pairs in order; a link that cannot be split is
    `Unparseable`. A Python dict keeps its keys in first-insertion order, so
    it is a sequence of pairs with distinct keys here. */
module EbayUrls {
  import opened Wrappers

  type Query = seq<(string, string)>

  datatype Url = Url(scheme: string, netloc: string, path: string, params: string,
                     query: Query, fragment: string)

  datatype ParsedUrl = Parsed(url: Url) | Unparseable(raw: string)

  /** What the empty href (`a.get_attribute("href") or ""`) splits into. */
  const EmptyUrl: ParsedUrl := Parsed(Url("", "", "", "", [], ""))

  const LangKey: string := "_lang"
  const English: string := "en-us"

  /** No key occurs twice: what a dict's items are. */
  predicate UniqueKeys(d: Query) {
    forall i, j :: 0 <= i < j < |d| ==> d[i].0 != d[j].0
  }

  /** Position of key `k`, |d| when it is absent. */
  function IndexOf(d: Query, k: string): (i: nat)
    ensures i <= |d|
    ensures i < |d| ==> d[i].0 == k
    ensures forall j :: 0 <= j < i ==> d[j].0 != k
  {
    if d == [] then 0
    else if d[0].0 == k then 0
    else
      var i := IndexOf(d[1..], k);
      assert forall j :: 1 <= j < i + 1 ==> d[j].0 != k by {
        forall j | 1 <= j < i + 1 ensures d[j].0 != k {
          assert d[j] == d[1..][j - 1];
        }
      }
      i + 1
  }

  /** `q.get(k)`. */
  function Get(d: Query, k: string): Option<string> {
    var i := IndexOf(d, k);
    if i < |d| then Some(d[i].1) else None
  }

  /** `q[k] = v`: an existing key keeps its place and takes the new value; a
      new key goes at the end. */
  function Put(d: Query, k: string, v: string): (r: Query)
    ensures |r| == |d| || |r| == |d| + 1
  {
    var i := IndexOf(d, k);
    if i < |d| then d[i := (k, v)] else d + [(k, v)]
  }

  /** `dict(pairs)`: each pair written in turn. */
  function DictOf(pairs: Query): Query {
    if pairs == [] then []
    else
      var last := pairs[|pairs| - 1];
      Put(DictOf(pairs[..|pairs| - 1]), last.0, last.1)
  }

  /** The value of the last pair with key `k`. */
  function LastValue(pairs: Query, k: string): Option<string> {
    if pairs == [] then None
    else if pairs[|pairs| - 1].0 == k then Some(pairs[|pairs| - 1].1)
    else LastValue(pairs[..|pairs| - 1], k)
  }

  /** The link `force_english_url` returns. */
  function ForceEnglish(u: ParsedUrl): ParsedUrl {
    match u
    case Unparseable(_) => u
    case Parsed(url) => Parsed(url.(query := Put(DictOf(url.query), LangKey, English)))
  }

  /** `force_english_url`: the dict is built pair by pair and `_lang` is
      written into it. */
  method ForceEnglishUrl(u: ParsedUrl) returns (r: ParsedUrl)
    ensures r == ForceEnglish(u)
  {
    if u.Unparseable? {
      return u;
    }
    var pairs := u.url.query;
    var q: Query := [];
    for i := 0 to |pairs|
      invariant q == DictOf(pairs[..i])
    {
      assert pairs[..i + 1][..i] == pairs[..i];
      q := Put(q, pairs[i].0, pairs[i].1);
    }
    assert pairs[..|pairs|] == pairs;
    q := Put(q, LangKey, English);
    r := Parsed(u.url.(query := q));
  }

  // Dict lemmas

  lemma PutUnique(d: Query, k: string, v: string)
    requires UniqueKeys(d)
    ensures UniqueKeys(Put(d, k, v))
  {
    var i := IndexOf(d, k);
    var r := Put(d, k, v);
    if i == |d| {
      forall a, b | 0 <= a < b < |r| ensures r[a].0 != r[b].0 {
        if b == |d| {
          assert r[a] == d[a];
        } else {
          assert r[a] == d[a] && r[b] == d[b];
        }
      }
    } else {
      forall a, b | 0 <= a < b < |r| ensures r[a].0 != r[b].0 {
        assert r[a].0 == d[a].0 && r[b].0 == d[b].0;
      }
    }
  }

  /** After `q[k] = v`, `q[k]` is v. */
  lemma PutGet(d: Query, k: string, v: string)
    ensures Get(Put(d, k, v), k) == Some(v)
  {
    var i := IndexOf(d, k);
    var r := Put(d, k, v);
    forall j | 0 <= j < i ensures r[j].0 != k {
      assert r[j] == d[j];
    }
    IndexOfIs(r, k, i);
  }

  /** `q[k] = v` leaves every other key as it was. */
  lemma PutOther(d: Query, k: string, v: string, k2: string)
    requires k2 != k
    ensures Get(Put(d, k, v), k2) == Get(d, k2)
  {
    var i := IndexOf(d, k2);
    var r := Put(d, k, v);
    forall j | 0 <= j < i ensures r[j].0 != k2 {
      if j < |d| {
        assert r[j].0 == d[j].0;
      }
    }
    if i < |d| {
      assert r[i].0 == d[i].0 && r[i] == d[i];
      IndexOfIs(r, k2, i);
    } else {
      assert forall j :: 0 <= j < |d| ==> r[j].0 == d[j].0;
      if |r| == |d| + 1 {
        assert r[|d|].0 == k;
      }
      IndexOfIs(r, k2, |r|);
    }
  }

  lemma IndexOfIs(d: Query, k: string, i: nat)
    requires i <= |d|
    requires i < |d| ==> d[i].0 == k
    requires forall j :: 0 <= j < i ==> d[j].0 != k
    ensures IndexOf(d, k) == i
  {
  }

  /** `dict(pairs)` has distinct keys. */
  lemma {:induction false} DictOfUnique(pairs: Query)
    ensures UniqueKeys(DictOf(pairs))
    decreases |pairs|
  {
    if pairs != [] {
      var last := pairs[|pairs| - 1];
      DictOfUnique(pairs[..|pairs| - 1]);
      PutUnique(DictOf(pairs[..|pairs| - 1]), last.0, last.1);
    }
  }

  /** `dict(pairs)[k]` is the value of the last pair with key k: later
      duplicates win, and blank values are kept like any other. */
  lemma {:induction false} DictOfGet(pairs: Query, k: string)
    ensures Get(DictOf(pairs), k) == LastValue(pairs, k)
    decreases |pairs|
  {
    if pairs != [] {
      var init := pairs[..|pairs| - 1];
      var last := pairs[|pairs| - 1];
      if last.0 == k {
        PutGet(DictOf(init), k, last.1);
      } else {
        DictOfGet(init, k);
        PutOther(DictOf(init), last.0, last.1, k);
      }
    }
  }

  /** Writing the value a key already has changes nothing. */
  lemma PutSame(d: Query, k: string, v: string)
    requires Get(d, k) == Some(v)
    ensures Put(d, k, v) == d
  {
  }

  /** A sequence of distinct keys is its own dict. */
  lemma {:induction false} DictOfDict(d: Query)
    requires UniqueKeys(d)
    ensures DictOf(d) == d
    decreases |d|
  {
    if d != [] {
      var init := d[..|d| - 1];
      var last := d[|d| - 1];
      assert UniqueKeys(init) by {
        forall a, b | 0 <= a < b < |init| ensures init[a].0 != init[b].0 {
          assert init[a] == d[a] && init[b] == d[b];
        }
      }
      DictOfDict(init);
      forall j | 0 <= j < |init| ensures init[j].0 != last.0 {
        assert init[j] == d[j];
      }
      IndexOfIs(init, last.0, |init|);
      assert init + [last] == d;
    }
  }

  // Properties of force_english_url

  /** The result's query maps `_lang` to "en-us", maps every other key to
      the last value it had, and has no duplicate keys; the other five
      components are those of the input. */
  lemma ForceEnglishQuery(url: Url, k: string)
    ensures ForceEnglish(Parsed(url)).Parsed?
    ensures var r := ForceEnglish(Parsed(url)).url;
            Get(r.query, LangKey) == Some(English)
            && (k != LangKey ==> Get(r.query, k) == LastValue(url.query, k))
            && UniqueKeys(r.query)
            && r.scheme == url.scheme && r.netloc == url.netloc && r.path == url.path
            && r.params == url.params && r.fragment == url.fragment
  {
    var d := DictOf(url.query);
    PutGet(d, LangKey, English);
    if k != LangKey {
      PutOther(d, LangKey, English, k);
      DictOfGet(url.query, k);
    }
    DictOfUnique(url.query);
    PutUnique(d, LangKey, English);
  }

  /** A link that could not be split is returned as it came. */
  lemma ForceEnglishKeepsUnparseable(raw: string)
    ensures ForceEnglish(Unparseable(raw)) == Unparseable(raw)
  {
  }

  /** Forcing English twice is forcing it once. */
  lemma ForceEnglishIdempotent(u: ParsedUrl)
    ensures ForceEnglish(ForceEnglish(u)) == ForceEnglish(u)
  {
    if u.Parsed? {
      var q := Put(DictOf(u.url.query), LangKey, English);
      DictOfUnique(u.url.query);
      PutUnique(DictOf(u.url.query), LangKey, English);
      DictOfDict(q);
      PutGet(DictOf(u.url.query), LangKey, English);
      PutSame(q, LangKey, English);
    }
  }

  /** When there was no `_lang`, the new query is `dict(pairs)` with
      `_lang=en-us` added after all of its keys. */
  lemma ForceEnglishAppendsLang(url: Url)
    requires LastValue(url.query, LangKey).None?
    ensures ForceEnglish(Parsed(url)).url.query == DictOf(url.query) + [(LangKey, English)]
  {
    DictOfGet(url.query, LangKey);
  }
}

=== FILE: names.dfy ===
/** `sanitize_name`, which turns a search query into the stem of the output
    file name. The two scrapers carry the same body; the Amazon copy also
    accepts None (`(s or "")`). */
module Names {
  import opened Wrappers
  import opened Text

  const DefaultName: string := "query"
  const MaxNameLength: nat := 80

  /** The class `[a-z0-9._ -]` kept by the filter (the space included). */
  predicate KeptChar(c: char) {
    ('a' <= c <= 'z') || ('0' <= c <= '9') || c == '.' || c == '_' || c == ' ' || c == '-'
  }

  /** The characters a sanitized name is made of. */
  predicate NameChar(c: char) {
    ('a' <= c <= 'z') || ('0' <= c <= '9') || c == '.' || c == '_' || c == '-'
  }

  /** A file-name stem as the function produces it. */
  predicate IsName(s: string) {
    0 < |s| <= MaxNameLength && forall i :: 0 <= i < |s| ==> NameChar(s[i])
  }

  /** `re.sub(r"[^a-z0-9._ -]+", "", s)`: drops every character outside the
      kept class, tabs and newlines among them. */
  function KeepChars(s: string): string {
    if s == [] then []
    else (if KeptChar(s[0]) then [s[0]] else []) + KeepChars(s[1..])
  }

  /** Only kept characters come out of the filter. */
  lemma {:induction false} KeepCharsKeeps(s: string)
    ensures forall i :: 0 <= i < |KeepChars(s)| ==> KeptChar(KeepChars(s)[i])
    decreases |s|
  {
    if s != [] {
      KeepCharsKeeps(s[1..]);
      var h: string := if KeptChar(s[0]) then [s[0]] else [];
      var t := KeepChars(s[1..]);
      assert KeepChars(s) == h + t;
      forall i | 0 <= i < |h + t| ensures KeptChar((h + t)[i]) {
        if i >= |h| { assert (h + t)[i] == t[i - |h|]; }
      }
    }
  }

  /** `sanitize_name(s)`: strip, lower-case, filter, each run of spaces to
      '_', then the first 80 characters, or "query" when nothing is left. */
  function SanitizeName(s: string): (r: string)
    ensures r == DefaultName || IsName(r)
  {
    KeepCharsKeeps(Lower(Strip(s)));
    Shorten(KeepChars(Lower(Strip(s))))
  }

  /** The last two steps, on the filtered text: join space runs with '_' and
      cut to 80 characters, "query" for nothing. */
  function Shorten(kept: string): (r: string)
    requires forall i :: 0 <= i < |kept| ==> KeptChar(kept[i])
    ensures r == DefaultName || IsName(r)
  {
    var t := SubstituteSpaceRuns(kept, "_");
    KeptNonSpaceIsNameChar(kept);
    SubstituteSpaceRunsWithin(kept, "_", NameChar);
    if t != [] then (if |t| <= MaxNameLength then t else t[..MaxNameLength]) else DefaultName
  }

  lemma KeptNonSpaceIsNameChar(kept: string)
    requires forall i :: 0 <= i < |kept| ==> KeptChar(kept[i])
    ensures forall i :: 0 <= i < |kept| && !IsSpace(kept[i]) ==> NameChar(kept[i])
  {
    forall i | 0 <= i < |kept| && !IsSpace(kept[i]) ensures NameChar(kept[i]) {
      assert KeptChar(kept[i]);
    }
  }

  /** The whole pipeline on text that is already stripped and lower-case. */
  lemma SanitizeNameOfClean(s: string)
    requires Stripped(s)
    requires forall i :: 0 <= i < |s| ==> !('A' <= s[i] <= 'Z')
    ensures Lower(Strip(s)) == s
  {
    assert Lower(s) == s;
  }

  /** A name passes the last two steps unchanged. */
  lemma ShortenFixesNames(s: string)
    requires IsName(s)
    ensures forall i :: 0 <= i < |s| ==> KeptChar(s[i])
    ensures Shorten(s) == s
  {
    forall i | 0 <= i < |s| ensures !IsSpace(s[i]) && KeptChar(s[i]) {
      NameCharFacts(s[i]);
    }
    SubstituteSpaceRunsNoSpace(s, "_");
  }

  /** The Amazon copy, `(s or "")` first: None is sanitized as "". */
  function SanitizeQuery(s: Option<string>): (r: string)
    ensures s.None? ==> r == DefaultName
    ensures r == DefaultName || IsName(r)
  {
    SanitizeName(s.GetOr(""))
  }

  /** A name the function could have produced comes back unchanged: it has no
      whitespace to strip or join, no upper case and nothing to filter. */
  lemma SanitizeNameFixesNames(s: string)
    requires IsName(s)
    ensures SanitizeName(s) == s
  {
    forall i | 0 <= i < |s| ensures !IsSpace(s[i]) && !('A' <= s[i] <= 'Z') && KeptChar(s[i]) {
      NameCharFacts(s[i]);
    }
    SanitizeNameOfClean(s);
    KeepCharsOfKept(s);
    ShortenFixesNames(s);
  }

  lemma NameCharFacts(c: char)
    requires NameChar(c)
    ensures !IsSpace(c) && LowerChar(c) == c && KeptChar(c)
  {
  }

  /** Sanitizing twice is sanitizing once. */
  lemma SanitizeNameIdempotent(s: string)
    ensures SanitizeName(SanitizeName(s)) == SanitizeName(s)
  {
    var r := SanitizeName(s);
    if r == DefaultName {
      DefaultIsName();
    }
    SanitizeNameFixesNames(r);
  }

  lemma DefaultIsName()
    ensures IsName(DefaultName)
  {
  }

  /** Text already stripped, lower-case and filtered goes straight to the
      last two steps. */
  lemma SanitizeClean(s: string)
    requires Stripped(s)
    requires forall i :: 0 <= i < |s| ==> KeptChar(s[i]) && !('A' <= s[i] <= 'Z')
    ensures SanitizeName(s) == Shorten(s)
  {
    SanitizeNameOfClean(s);
    KeepCharsOfKept(s);
  }

  /** Two words separated by a run of spaces are joined by one '_'. */
  lemma SanitizeNameJoinsSpaceRun(x: string, w: string, y: string)
    requires IsName(x) && IsName(y) && |x| + 1 + |y| <= MaxNameLength
    requires w != [] && forall i :: 0 <= i < |w| ==> w[i] == ' '
    ensures SanitizeName(x + w + y) == x + "_" + y
  {
    var s := x + w + y;
    CleanJoin(x, w, y);
    SanitizeClean(s);
    JoinRun(x, w, y);
    ShortenJoined(s, x + "_" + y);
  }

  /** The space run between two names becomes one '_'. */
  lemma JoinRun(x: string, w: string, y: string)
    requires IsName(x) && IsName(y)
    requires w != [] && forall i :: 0 <= i < |w| ==> w[i] == ' '
    ensures SubstituteSpaceRuns(x + w + y, "_") == x + "_" + y
  {
    assert AllSpace(w);
    NameCharFacts(x[|x| - 1]);
    NameCharFacts(y[0]);
    SubstituteSpaceRunsSplit(x, w, y, "_");
    NameNoSpace(x);
    NameNoSpace(y);
    SubstituteSpaceRunsNoSpace(x, "_");
    SubstituteSpaceRunsNoSpace(y, "_");
  }

  lemma ShortenJoined(s: string, t: string)
    requires forall i :: 0 <= i < |s| ==> KeptChar(s[i])
    requires SubstituteSpaceRuns(s, "_") == t && 0 < |t| <= MaxNameLength
    ensures Shorten(s) == t
  {
  }

  /** x, a space run and y, with x and y names, is already stripped,
      lower-case and made of kept characters. */
  lemma CleanJoin(x: string, w: string, y: string)
    requires IsName(x) && IsName(y)
    requires forall i :: 0 <= i < |w| ==> w[i] == ' '
    ensures Stripped(x + w + y)
    ensures forall i :: 0 <= i < |x + w + y| ==> KeptChar((x + w + y)[i]) && !('A' <= (x + w + y)[i] <= 'Z')
  {
    var s := x + w + y;
    forall i | 0 <= i < |s| ensures KeptChar(s[i]) && !('A' <= s[i] <= 'Z') {
      if i < |x| { assert s[i] == x[i]; }
      else if i < |x| + |w| { assert s[i] == w[i - |x|]; }
      else { assert s[i] == y[i - |x| - |w|]; }
    }
    assert s[0] == x[0];
    assert s[|s| - 1] == y[|y| - 1];
    NameCharFacts(x[0]);
    NameCharFacts(y[|y| - 1]);
  }

  lemma NameNoSpace(x: string)
    requires IsName(x)
    ensures NoSpace(x)
  {
    forall i | 0 <= i < |x| ensures !IsSpace(x[i]) {
      NameCharFacts(x[i]);
    }
  }

  /** A character outside the kept class (not an upper-case letter, which
      would be lowered first) between two names disappears. */
  lemma SanitizeNameDropsFiltered(x: string, c: char, y: string)
    requires IsName(x) && IsName(y) && |x| + |y| <= MaxNameLength
    requires !KeptChar(c) && !('A' <= c <= 'Z')
    ensures SanitizeName(x + [c] + y) == x + y
  {
    var s := x + [c] + y;
    CleanDrop(x, c, y);
    SanitizeNameOfClean(s);
    NameKept(x);
    NameKept(y);
    KeepCharsDropsOne(x, c, y);
    NameConcat(x, y);
    ShortenFixesNames(x + y);
  }

  lemma CleanDrop(x: string, c: char, y: string)
    requires IsName(x) && IsName(y)
    requires !('A' <= c <= 'Z')
    ensures Stripped(x + [c] + y)
    ensures forall i :: 0 <= i < |x + [c] + y| ==> !('A' <= (x + [c] + y)[i] <= 'Z')
  {
    var s := x + [c] + y;
    forall i | 0 <= i < |s| ensures !('A' <= s[i] <= 'Z') {
      if i < |x| { assert s[i] == x[i]; NameCharFacts(x[i]); }
      else if i > |x| { assert s[i] == y[i - |x| - 1]; NameCharFacts(y[i - |x| - 1]); }
    }
    assert s[0] == x[0] && s[|s| - 1] == y[|y| - 1];
    NameCharFacts(x[0]);
    NameCharFacts(y[|y| - 1]);
  }

  /** Whitespace other than the space is filtered out before runs are joined,
      so a tab between two words disappears instead of becoming '_'. */
  lemma SanitizeNameDropsTab(x: string, y: string)
    requires IsName(x) && IsName(y) && |x| + |y| <= MaxNameLength
    ensures SanitizeName(x + ['\t'] + y) == x + y
  {
    SanitizeNameDropsFiltered(x, '\t', y);
  }

  lemma NameKept(x: string)
    requires IsName(x)
    ensures forall i :: 0 <= i < |x| ==> KeptChar(x[i])
  {
    forall i | 0 <= i < |x| ensures KeptChar(x[i]) {
      NameCharFacts(x[i]);
    }
  }

  lemma KeepCharsDropHead(c: char, y: string)
    requires !KeptChar(c)
    ensures KeepChars([c] + y) == KeepChars(y)
  {
    assert ([c] + y)[1..] == y;
  }

  lemma KeepCharsDropsOne(x: string, c: char, y: string)
    requires forall i :: 0 <= i < |x| ==> KeptChar(x[i])
    requires forall i :: 0 <= i < |y| ==> KeptChar(y[i])
    requires !KeptChar(c)
    ensures KeepChars(x + [c] + y) == x + y
  {
    ConcatAssoc(x, [c], y);
    KeepCharsAppend(x, [c] + y);
    KeepCharsDropHead(c, y);
    KeepCharsOfKept(x);
    KeepCharsOfKept(y);
  }

  lemma NameConcat(x: string, y: string)
    requires IsName(x) && IsName(y) && |x| + |y| <= MaxNameLength
    ensures IsName(x + y)
  {
    forall i | 0 <= i < |x + y| ensures NameChar((x + y)[i]) {
      if i < |x| { assert (x + y)[i] == x[i]; } else { assert (x + y)[i] == y[i - |x|]; }
    }
  }

  /** Text made only of kept characters passes the filter unchanged. */
  lemma {:induction false} KeepCharsOfKept(s: string)
    requires forall i :: 0 <= i < |s| ==> KeptChar(s[i])
    ensures KeepChars(s) == s
    decreases |s|
  {
    if s != [] {
      KeepCharsOfKept(s[1..]);
    }
  }

  lemma {:induction false} KeepCharsAppend(a: string, b: string)
    ensures KeepChars(a + b) == KeepChars(a) + KeepChars(b)
    decreases |a|
  {
    if a == [] {
      assert a + b == b;
    } else {
      var h: string := if KeptChar(a[0]) then [a[0]] else [];
      assert (a + b)[0] == a[0];
      assert (a + b)[1..] == a[1..] + b;
      KeepCharsAppend(a[1..], b);
      ConcatAssoc(h, KeepChars(a[1..]), KeepChars(b));
    }
  }
}

=== FILE: resolver.dfy ===
/** The ordered fallback resolver that both scrapers repeat for every field:
    try the locators in their declared order and keep the first value read
    that passes the field's check. A locator attempt is `Some(v)` when the
    element was found and `v` read from it, `None` when the lookup raised
    (element absent, stale, timed out); a raised lookup is skipped silently.

    The source writes this loop in two ways, and both are modelled:
    - check then assign (`if t and ok(t): title = t; break`): a value that
      fails the check is never kept, so the result is the first valid value
      or the field's default;
    - assign then check (`body = read(); if ok(body): break`): each value read
      overwrites the variable before it is checked, so when no value passes,
      the variable holds the LAST value read, whatever the check said. */
module Resolver {
  import opened Wrappers
  import opened Text

  /** Attempt `i` read a value that passes the check. */
  predicate PassesAt<T>(attempts: seq<Option<T>>, valid: T -> bool, i: int)
    requires 0 <= i < |attempts|
  {
    attempts[i].Some? && valid(attempts[i].value)
  }

  /** Position of the first attempt that passes, |attempts| when none does. */
  function FirstValidIndex<T>(attempts: seq<Option<T>>, valid: T -> bool): (k: nat)
    ensures k <= |attempts|
    ensures k < |attempts| ==> PassesAt(attempts, valid, k)
    ensures forall j :: 0 <= j < k ==> !PassesAt(attempts, valid, j)
  {
    if attempts == [] then 0
    else if PassesAt(attempts, valid, 0) then 0
    else
      var k := FirstValidIndex(attempts[1..], valid);
      assert forall j :: 1 <= j < k + 1 ==> !PassesAt(attempts, valid, j) by {
        forall j | 1 <= j < k + 1 ensures !PassesAt(attempts, valid, j) {
          assert attempts[j] == attempts[1..][j - 1];
          assert !PassesAt(attempts[1..], valid, j - 1);
        }
      }
      1 + k
  }

  /** The value the resolver settles on: that of the first passing attempt,
      None (the field's NotFound) when none passes. */
  function FirstValid<T>(attempts: seq<Option<T>>, valid: T -> bool): (r: Option<T>)
    ensures r.Some? <==> exists i :: 0 <= i < |attempts| && PassesAt(attempts, valid, i)
    ensures r.Some? ==> valid(r.value) && r in attempts
  {
    var k := FirstValidIndex(attempts, valid);
    if k < |attempts| then attempts[k] else None
  }

  /** The value of the last attempt that read anything, `init` when every
      attempt raised. */
  function LastRead<T>(attempts: seq<Option<T>>, init: T): (r: T)
    ensures r == init || Some(r) in attempts
  {
    if attempts == [] then init
    else if attempts[|attempts| - 1].Some? then attempts[|attempts| - 1].value
    else LastRead(attempts[..|attempts| - 1], init)
  }

  /** The check-then-assign loop: `value = default; for each locator: try
      t = read(); if ok(t): value = t; break; except: continue`. */
  method ResolveFirst<T>(attempts: seq<Option<T>>, valid: T -> bool, default: T) returns (value: T)
    ensures value == FirstValid(attempts, valid).GetOr(default)
    ensures value == default || valid(value)
  {
    value := default;
    var i := 0;
    while i < |attempts|
      invariant 0 <= i <= |attempts|
      invariant forall j :: 0 <= j < i ==> !PassesAt(attempts, valid, j)
      invariant value == default
    {
      var attempt := attempts[i];
      if attempt.Some? && valid(attempt.value) {
        value := attempt.value;
        FirstValidIndexIs(attempts, valid, i);
        return;
      }
      i := i + 1;
    }
    assert FirstValidIndex(attempts, valid) == |attempts|;
  }

  /** The assign-then-check loop: `value = init; for each locator: try
      value = read(); if ok(value): break; except: continue`. */
  method ReadUntilValid<T>(attempts: seq<Option<T>>, valid: T -> bool, init: T) returns (value: T)
    ensures value == match FirstValid(attempts, valid)
                     case Some(v) => v
                     case None => LastRead(attempts, init)
  {
    value := init;
    var i := 0;
    while i < |attempts|
      invariant 0 <= i <= |attempts|
      invariant forall j :: 0 <= j < i ==> !PassesAt(attempts, valid, j)
      invariant value == LastRead(attempts[..i], init)
    {
      var attempt := attempts[i];
      assert attempts[..i + 1][..i] == attempts[..i];
      if attempt.Some? {
        value := attempt.value;
        if valid(value) {
          FirstValidIndexIs(attempts, valid, i);
          return;
        }
      }
      i := i + 1;
    }
    assert attempts[..i] == attempts;
    assert FirstValidIndex(attempts, valid) == |attempts|;
  }

  /** Once an attempt passes, the attempts after it are never consulted:
      appending more locators changes nothing. */
  lemma {:induction false} FirstValidIgnoresLater<T>(a: seq<Option<T>>, b: seq<Option<T>>, valid: T -> bool)
    requires FirstValid(a, valid).Some?
    ensures FirstValid(a + b, valid) == FirstValid(a, valid)
  {
    var k := FirstValidIndex(a, valid);
    forall j | 0 <= j <= k ensures (a + b)[j] == a[j] && (PassesAt(a + b, valid, j) <==> PassesAt(a, valid, j)) {
    }
    FirstValidIndexIs(a + b, valid, k);
  }

  /** Attempts that all fail are as good as absent: the resolver falls
      through them to the later ones. */
  lemma {:induction false} FirstValidSkipsFailures<T>(a: seq<Option<T>>, b: seq<Option<T>>, valid: T -> bool)
    requires FirstValid(a, valid).None?
    ensures FirstValid(a + b, valid) == FirstValid(b, valid)
  {
    var k := FirstValidIndex(b, valid);
    forall j | 0 <= j < |a| ensures !PassesAt(a + b, valid, j) {
      assert (a + b)[j] == a[j];
      assert !PassesAt(a, valid, j);
    }
    forall j | |a| <= j < |a| + k ensures !PassesAt(a + b, valid, j) {
      assert (a + b)[j] == b[j - |a|];
      assert !PassesAt(b, valid, j - |a|);
    }
    if k < |b| {
      assert (a + b)[|a| + k] == b[k];
    }
    FirstValidIndexIs(a + b, valid, |a| + k);
  }

  /** The first index that passes, with none before it, is the resolver's. */
  lemma FirstValidIndexIs<T>(attempts: seq<Option<T>>, valid: T -> bool, k: nat)
    requires k <= |attempts|
    requires k < |attempts| ==> PassesAt(attempts, valid, k)
    requires forall j :: 0 <= j < k ==> !PassesAt(attempts, valid, j)
    ensures FirstValidIndex(attempts, valid) == k
  {
  }

  /** When every value that fails the check equals the initial value (the
      check "non-empty" with "" or [] to start from), a loop that finds no
      passing value has only ever overwritten the initial value with itself. */
  lemma {:induction false} LastReadOfFailures<T>(attempts: seq<Option<T>>, valid: T -> bool, init: T)
    requires forall i :: 0 <= i < |attempts| ==> !PassesAt(attempts, valid, i)
    requires forall x :: !valid(x) ==> x == init
    ensures LastRead(attempts, init) == init
    decreases |attempts|
  {
    if attempts != [] {
      var front := attempts[..|attempts| - 1];
      assert !PassesAt(attempts, valid, |attempts| - 1);
      forall i | 0 <= i < |front| ensures !PassesAt(front, valid, i) {
        assert front[i] == attempts[i];
        assert !PassesAt(attempts, valid, i);
      }
      LastReadOfFailures(front, valid, init);
    }
  }

  /** Under the same condition the two loop shapes give the same value. */
  lemma LoopShapesAgree<T>(attempts: seq<Option<T>>, valid: T -> bool, init: T)
    requires forall x :: !valid(x) ==> x == init
    ensures (match FirstValid(attempts, valid)
             case Some(v) => v
             case None => LastRead(attempts, init))
         == FirstValid(attempts, valid).GetOr(init)
  {
    if FirstValid(attempts, valid).None? {
      LastReadOfFailures(attempts, valid, init);
    }
  }

  // Text fields: the value read is stripped and the check is "non-empty".

  predicate NonEmpty(s: string) {
    s != ""
  }

  /** `.text.strip()` applied to each read. */
  function StripReads(attempts: seq<Option<string>>): (r: seq<Option<string>>)
    ensures |r| == |attempts|
    ensures forall i :: 0 <= i < |r| ==> r[i].Some? == attempts[i].Some?
    ensures forall i :: 0 <= i < |r| && r[i].Some? ==> r[i].value == Strip(attempts[i].value)
  {
    seq(|attempts|, i requires 0 <= i < |attempts| =>
      if attempts[i].Some? then Some(Strip(attempts[i].value)) else None)
  }

  /** Stripping reads locator by locator: a longer locator list strips to
      the longer list. */
  lemma StripReadsAppend(a: seq<Option<string>>, b: seq<Option<string>>)
    ensures StripReads(a + b) == StripReads(a) + StripReads(b)
  {
    var l := StripReads(a + b);
    var r := StripReads(a) + StripReads(b);
    forall i | 0 <= i < |l| ensures l[i] == r[i] {
      if i < |a| {
        assert (a + b)[i] == a[i];
      } else {
        assert (a + b)[i] == b[i - |a|];
      }
    }
  }

  /** A field as its fallback loop leaves it: the first stripped read that
      is not empty, "" when there is none. */
  function Field(attempts: seq<Option<string>>): string {
    FirstValid(StripReads(attempts), NonEmpty).GetOr("")
  }

  /** A field is stripped, and empty exactly when every read was blank or
      raised. */
  lemma FieldIsFirstRead(attempts: seq<Option<string>>)
    ensures Stripped(Field(attempts))
    ensures Field(attempts) != "" <==>
              exists i :: 0 <= i < |attempts| && attempts[i].Some? && Strip(attempts[i].value) != ""
  {
    var r := StripReads(attempts);
    var f := FirstValid(r, NonEmpty);
    if f.Some? {
      assert Some(f.value) in r;
      var i :| 0 <= i < |r| && r[i] == Some(f.value);
      assert attempts[i].Some? && Strip(attempts[i].value) != "";
    } else {
      forall i | 0 <= i < |attempts| && attempts[i].Some? ensures Strip(attempts[i].value) == "" {
        assert !PassesAt(r, NonEmpty, i);
      }
    }
  }

  /** The field loop `v = el.text.strip(); if v: break`. It assigns before
      it checks, but a read that fails "non-empty" is "", so the loop ends
      with the value `Field` names. */
  method ReadField(attempts: seq<Option<string>>) returns (v: string)
    ensures v == Field(attempts)
  {
    var r := StripReads(attempts);
    v := ReadUntilValid(r, NonEmpty, "");
    LoopShapesAgree(r, NonEmpty, "");
  }
}

=== FILE: reviews.dfy ===
/** The review scrapers of Selenium_Amazon.py: the per-block field reads,
    the paged collectors of the reviews and global-reviews listings, the
    inline collectors of the product page, and `top_k_review_texts`.

    The browser is data. A block is the outcome of each locator of each
    field; a listing page is the outcome of each container locator
    (`find_elements`) and whether a "next" link was clicked. */
module Reviews {
  import opened Wrappers
  import opened Text
  import opened Resolver
  import opened Collect
  import opened Country
  import opened AmazonUrls

  /** One review block: for each field, the `.text` read by each locator
      in order (None when the locator raised). */
  datatype Block = Block(
    title: seq<Option<string>>,
    text: seq<Option<string>>,
    rating: seq<Option<string>>,
    date: seq<Option<string>>)

  /** The dict appended per review. */
  datatype Review = Review(title: string, text: string, rating: string, date: string, origin: string)

  /** A listing page: the `find_elements` result of each container
      selector (None when it raised), and whether a next link was clicked. */
  datatype Page = Page(containers: seq<Option<seq<Block>>>, nextClicked: bool)

  predicate NonEmptyBlocks(bs: seq<Block>) {
    bs != []
  }

  /** The record of a block, None when it has no text. A foreign review
      takes its origin from its date line, a domestic one has "". */
  function Extract(b: Block, foreign: bool): Option<Review> {
    var text := Field(b.text);
    if text == "" then None
    else
      var date := Field(b.date);
      Some(Review(Field(b.title), text, Field(b.rating), date, if foreign then ParseCountry(date) else ""))
  }

  function ExtractDomestic(b: Block): Option<Review> {
    Extract(b, false)
  }

  function ExtractForeign(b: Block): Option<Review> {
    Extract(b, true)
  }

  function Extractor(foreign: bool): Block -> Option<Review> {
    if foreign then ExtractForeign else ExtractDomestic
  }

  /** The body of one block iteration: four field loops, then the record. */
  method ExtractBlock(b: Block, foreign: bool) returns (r: Option<Review>)
    ensures r == Extractor(foreign)(b)
  {
    var title := ReadField(b.title);
    var text := ReadField(b.text);
    var rating := ReadField(b.rating);
    var date := ReadField(b.date);
    if text != "" {
      var origin := if foreign then ParseCountry(date) else "";
      r := Some(Review(title, text, rating, date, origin));
    } else {
      r := None;
    }
  }

  /** The blocks a page yields: the first container selector that found
      any, [] when none did. */
  function BlocksOf(p: Page): seq<Block> {
    FirstValid(p.containers, NonEmptyBlocks).GetOr([])
  }

  /** The container loop `blocks = find_elements(sel); if blocks: break`. */
  method ReadBlocks(p: Page) returns (blocks: seq<Block>)
    ensures blocks == BlocksOf(p)
  {
    blocks := ReadUntilValid(p.containers, NonEmptyBlocks, []);
    LoopShapesAgree(p.containers, NonEmptyBlocks, []);
  }

  /** The reviews of one page, in block order, as `f` extracts them. */
  function PageReviews(p: Page, f: Block -> Option<Review>): seq<Review> {
    FilterMap(BlocksOf(p), f)
  }

  /** Page `i` of the listing; past the given pages the listing is an empty
      page without a next link. */
  function PageAt(pages: seq<Page>, i: nat): Page {
    if i < |pages| then pages[i] else Page([], false)
  }

  /** The number of pages the page loop processes, starting at page `i`
      (0-based), when it is not cut short by the review bound: it goes on
      while a next link was clicked, up to `maxPages` pages. */
  function VisitedFrom(pages: seq<Page>, i: nat, maxPages: int): (k: nat)
    ensures i <= k
    ensures k <= (if maxPages > i then maxPages else i)
    ensures i < maxPages ==> i < k
    decreases maxPages - i
  {
    if maxPages <= i then i
    else if !PageAt(pages, i).nextClicked then i + 1
    else VisitedFrom(pages, i + 1, maxPages)
  }

  /** The loop passes every page before the last it processes through a
      clicked next link, and it stops before `maxPages` only at a page
      without one. */
  lemma {:induction false} VisitedFromStops(pages: seq<Page>, i: nat, maxPages: int, j: nat)
    ensures i <= j < VisitedFrom(pages, i, maxPages) - 1 ==> PageAt(pages, j).nextClicked
    ensures var k := VisitedFrom(pages, i, maxPages);
            k < maxPages && i < k ==> !PageAt(pages, k - 1).nextClicked
    decreases maxPages - i
  {
    if i < maxPages && PageAt(pages, i).nextClicked {
      VisitedFromStops(pages, i + 1, maxPages, j);
    }
  }

  function Visited(pages: seq<Page>, maxPages: int): (k: nat) {
    VisitedFrom(pages, 0, maxPages)
  }

  /** The reviews of the first `k` pages, page after page. */
  function PagesReviews(pages: seq<Page>, k: nat, f: Block -> Option<Review>): seq<Review> {
    if k == 0 then [] else PagesReviews(pages, k - 1, f) + PageReviews(PageAt(pages, k - 1), f)
  }

  lemma {:induction false} PagesReviewsMono(pages: seq<Page>, a: nat, b: nat, f: Block -> Option<Review>)
    requires a <= b
    ensures PagesReviews(pages, a, f) <= PagesReviews(pages, b, f)
    decreases b - a
  {
    if a < b {
      PagesReviewsMono(pages, a, b - 1, f);
      PrefixExtend(PagesReviews(pages, a, f), PagesReviews(pages, b - 1, f), PageReviews(PageAt(pages, b - 1), f));
    }
  }

  /** The block loop of one page: append each block's record to
      `before`, stopping as soon as `max_reviews` records are held (`full`).
      `done` counts the blocks consumed. */
  method CollectBlocks(blocks: seq<Block>, foreign: bool, before: seq<Review>, maxReviews: int)
    returns (results: seq<Review>, full: bool, ghost done: nat)
    requires |before| < Cap(maxReviews)
    ensures done <= |blocks|
    ensures results == before + FilterMap(blocks[..done], Extractor(foreign))
    ensures !full ==> done == |blocks| && |results| < Cap(maxReviews)
    ensures full ==> |results| == Cap(maxReviews)
  {
    var f := Extractor(foreign);
    results := before;
    var j := 0;
    while j < |blocks|
      invariant 0 <= j <= |blocks|
      invariant results == before + FilterMap(blocks[..j], f)
      invariant |results| < Cap(maxReviews)
    {
      var r := ExtractBlock(blocks[j], foreign);
      FilterMapStep(blocks, j, f);
      if r.Some? {
        ConcatAssoc(before, FilterMap(blocks[..j], f), [r.value]);
        results := results + [r.value];
        if |results| >= maxReviews {
          return results, true, j + 1;
        }
      }
      j := j + 1;
    }
    return results, false, j;
  }

  /** The page loop shared by the reviews listing (Selenium_Amazon.py:224-296)
      and the global-reviews listing (:452-517): for each page, read the
      blocks, append every block with text, return once `max_reviews`
      records are held; then stop unless a next link was clicked. */
  method CollectPages(pages: seq<Page>, maxPages: int, maxReviews: int, foreign: bool)
    returns (results: seq<Review>)
    ensures results == Take(PagesReviews(pages, Visited(pages, maxPages), Extractor(foreign)), Cap(maxReviews))
  {
    ghost var f := Extractor(foreign);
    results := [];
    var p: nat := 0;
    while p < maxPages
      invariant VisitedFrom(pages, p, maxPages) == Visited(pages, maxPages)
      invariant results == PagesReviews(pages, p, f)
      invariant |results| < Cap(maxReviews)
      decreases maxPages - p
    {
      var page := PageAt(pages, p);
      var blocks := ReadBlocks(page);
      var full;
      ghost var done;
      results, full, done := CollectBlocks(blocks, foreign, results, maxReviews);
      if full {
        ReachedBound(pages, p, maxPages, blocks[..done], results, maxReviews, f);
        return;
      }
      PageDone(pages, p, maxPages, blocks, done, f);
      p := p + 1;
      if !page.nextClicked {
        break;
      }
    }
    LoopEnd(pages, p, maxPages, results, maxReviews, f);
  }

  /** A page read to its end extends the records of the pages before it;
      the loop goes on to the next page exactly when a next link was
      clicked. */
  lemma PageDone(pages: seq<Page>, p: nat, maxPages: int, blocks: seq<Block>, done: nat, f: Block -> Option<Review>)
    requires p < maxPages && done == |blocks| && blocks == BlocksOf(PageAt(pages, p))
    ensures PagesReviews(pages, p, f) + FilterMap(blocks[..done], f) == PagesReviews(pages, p + 1, f)
    ensures PageAt(pages, p).nextClicked ==> VisitedFrom(pages, p, maxPages) == VisitedFrom(pages, p + 1, maxPages)
    ensures !PageAt(pages, p).nextClicked ==> VisitedFrom(pages, p, maxPages) == p + 1
  {
    assert blocks[..done] == blocks;
  }

  /** When the loop ends without reaching the bound, it has read every
      page it visits and holds all their records. */
  lemma LoopEnd(pages: seq<Page>, p: nat, maxPages: int, results: seq<Review>, maxReviews: int, f: Block -> Option<Review>)
    requires Visited(pages, maxPages) == p
    requires results == PagesReviews(pages, p, f)
    requires |results| < Cap(maxReviews)
    ensures results == Take(PagesReviews(pages, Visited(pages, maxPages), f), Cap(maxReviews))
  {
    TakeAll(results, Cap(maxReviews));
  }

  /** The early return: the records held are the first Cap(maxReviews) of
      all the records of the pages the loop would visit. */
  lemma ReachedBound(pages: seq<Page>, p: nat, maxPages: int, done: seq<Block>,
                     results: seq<Review>, maxReviews: int, f: Block -> Option<Review>)
    requires p < maxPages && VisitedFrom(pages, p, maxPages) == Visited(pages, maxPages)
    requires done <= BlocksOf(PageAt(pages, p))
    requires results == PagesReviews(pages, p, f) + FilterMap(done, f)
    requires |results| == Cap(maxReviews)
    ensures results == Take(PagesReviews(pages, Visited(pages, maxPages), f), Cap(maxReviews))
  {
    var v := Visited(pages, maxPages);
    var whole := PageReviews(PageAt(pages, p), f);
    NextPage(pages, p, maxPages, f);
    FilterMapOfPrefix(done, BlocksOf(PageAt(pages, p)), f);
    PagesReviewsMono(pages, p + 1, v, f);
    CapReached(PagesReviews(pages, p, f), FilterMap(done, f), whole, PagesReviews(pages, v, f), results, Cap(maxReviews));
  }

  /** The page after `p` is one the loop visits, and its records follow
      those of the pages before it. */
  lemma NextPage(pages: seq<Page>, p: nat, maxPages: int, f: Block -> Option<Review>)
    requires p < maxPages
    ensures p + 1 <= VisitedFrom(pages, p, maxPages)
    ensures PagesReviews(pages, p + 1, f) == PagesReviews(pages, p, f) + PageReviews(PageAt(pages, p), f)
  {
  }

  /** `scrape_full_reviews_from_reviews_page`: nothing for an empty URL,
      else the domestic page loop. */
  method ScrapeFullReviews(url: string, pages: seq<Page>, maxPages: int, maxReviews: int)
    returns (results: seq<Review>)
    ensures url == "" ==> results == []
    ensures url != "" ==> results == Take(PagesReviews(pages, Visited(pages, maxPages), ExtractDomestic), Cap(maxReviews))
  {
    if url == "" {
      return [];
    }
    results := CollectPages(pages, maxPages, maxReviews, false);
  }

  /** The inline loop `for b in blocks[:limit]`, with no bound of its own. */
  method CollectInline(blocks: seq<Block>, limit: int, foreign: bool) returns (results: seq<Review>)
    ensures results == FilterMap(PyPrefix(blocks, limit), Extractor(foreign))
  {
    var bs := PyPrefix(blocks, limit);
    results := [];
    for j := 0 to |bs|
      invariant results == FilterMap(bs[..j], Extractor(foreign))
    {
      var r := ExtractBlock(bs[j], foreign);
      FilterMapStep(bs, j, Extractor(foreign));
      if r.Some? {
        results := results + [r.value];
      }
    }
    assert bs[..|bs|] == bs;
  }

  /** `scrape_inline_domestic_blocks`: `found` is the `find_elements`
      result, None when it raised, which the outer `try` turns into []. */
  method ScrapeInlineDomestic(found: Option<seq<Block>>, limit: int) returns (results: seq<Review>)
    ensures found.None? ==> results == []
    ensures found.Some? ==> results == FilterMap(PyPrefix(found.value, limit), ExtractDomestic)
  {
    if found.None? {
      return [];
    }
    results := CollectInline(found.value, limit, false);
  }

  /** `scrape_inline_foreign_blocks`: its `find_elements` is outside any
      `try`, so a raise (None) propagates to the caller (None here). */
  method ScrapeInlineForeign(found: Option<seq<Block>>, limit: int) returns (results: Option<seq<Review>>)
    ensures found.None? ==> results.None?
    ensures found.Some? ==> results == Some(FilterMap(PyPrefix(found.value, limit), ExtractForeign))
  {
    if found.None? {
      return None;
    }
    var rs := CollectInline(found.value, limit, true);
    results := Some(rs);
  }

  /** `scrape_foreign_reviews_from_reviews_page`: the paged loop when the
      current URL is a global-reviews page or the link to one could be
      followed (`navigated`, consulted only in the second case), else the
      inline foreign blocks of the current page. */
  method ScrapeForeignReviews(current: string, navigated: bool, pages: seq<Page>,
                              inline: Option<seq<Block>>, maxPages: int, maxReviews: int)
    returns (results: Option<seq<Review>>)
    ensures (Contains(current, GlobalTag) || navigated) ==>
              results == Some(Take(PagesReviews(pages, Visited(pages, maxPages), ExtractForeign), Cap(maxReviews)))
    ensures !(Contains(current, GlobalTag) || navigated) ==>
              results == (if inline.None? then None else Some(FilterMap(PyPrefix(inline.value, maxReviews), ExtractForeign)))
  {
    var atGlobal := Contains(current, GlobalTag) || navigated;
    if atGlobal {
      var rs := CollectPages(pages, maxPages, maxReviews, true);
      return Some(rs);
    }
    results := ScrapeInlineForeign(inline, maxReviews);
  }

  /** Every record a collector gives has a non-empty, stripped text. */
  lemma {:induction false} ReviewsHaveText(blocks: seq<Block>, foreign: bool, k: nat)
    requires k < |FilterMap(blocks, Extractor(foreign))|
    ensures FilterMap(blocks, Extractor(foreign))[k].text != ""
    ensures Stripped(FilterMap(blocks, Extractor(foreign))[k].text)
  {
    FilterMapFrom(blocks, Extractor(foreign), k);
    var i :| 0 <= i < |blocks| && Extractor(foreign)(blocks[i]) == Some(FilterMap(blocks, Extractor(foreign))[k]);
    FieldIsFirstRead(blocks[i].text);
  }

  /** Foreign records carry the country of their own date line. */
  lemma ForeignOrigin(blocks: seq<Block>, k: nat)
    requires k < |FilterMap(blocks, ExtractForeign)|
    ensures var r := FilterMap(blocks, ExtractForeign)[k];
            r.origin == ParseCountry(r.date)
  {
    FilterMapFrom(blocks, ExtractForeign, k);
  }

  /** What every domestic record satisfies: a non-empty text, every field
      stripped, no origin. */
  predicate GoodDomestic(r: Review) {
    r.text != "" && Stripped(r.text) && Stripped(r.title) && Stripped(r.rating) && Stripped(r.date)
    && r.origin == ""
  }

  /** What every foreign record satisfies: the same, with the origin the
      country of its own date line. */
  predicate GoodForeign(r: Review) {
    r.text != "" && Stripped(r.text) && Stripped(r.title) && Stripped(r.rating) && Stripped(r.date)
    && r.origin == ParseCountry(r.date)
  }

  lemma ExtractFields(b: Block)
    ensures Stripped(Field(b.title)) && Stripped(Field(b.text))
    ensures Stripped(Field(b.rating)) && Stripped(Field(b.date))
  {
    FieldIsFirstRead(b.title);
    FieldIsFirstRead(b.text);
    FieldIsFirstRead(b.rating);
    FieldIsFirstRead(b.date);
  }

  lemma DomesticAllGood()
    ensures forall b :: ExtractDomestic(b).Some? ==> GoodDomestic(ExtractDomestic(b).value)
  {
    forall b | ExtractDomestic(b).Some? ensures GoodDomestic(ExtractDomestic(b).value) {
      ExtractFields(b);
    }
  }

  lemma ForeignAllGood()
    ensures forall b :: ExtractForeign(b).Some? ==> GoodForeign(ExtractForeign(b).value)
  {
    forall b | ExtractForeign(b).Some? ensures GoodForeign(ExtractForeign(b).value) {
      ExtractFields(b);
    }
  }

  /** A property of every record the extractor gives holds of every record
      the pages give. */
  lemma {:induction false} PagesReviewsAll(pages: seq<Page>, n: nat, f: Block -> Option<Review>, P: Review -> bool)
    requires forall b :: f(b).Some? ==> P(f(b).value)
    ensures forall k :: 0 <= k < |PagesReviews(pages, n, f)| ==> P(PagesReviews(pages, n, f)[k])
  {
    if n > 0 {
      PagesReviewsAll(pages, n - 1, f, P);
      FilterMapAll(BlocksOf(PageAt(pages, n - 1)), f, P);
      AllConcat(PagesReviews(pages, n - 1, f), PageReviews(PageAt(pages, n - 1), f), P);
    }
  }

  /** Whether a page is processed depends only on the next links: a page
      without blocks does not end the loop. */
  lemma {:induction false} VisitedOnlyFollowsNextLinks(pages: seq<Page>, other: seq<Page>, i: nat, maxPages: int)
    requires |pages| == |other|
    requires forall j :: 0 <= j < |pages| ==> pages[j].nextClicked == other[j].nextClicked
    ensures VisitedFrom(pages, i, maxPages) == VisitedFrom(other, i, maxPages)
    decreases maxPages - i
  {
    if i < maxPages {
      assert PageAt(pages, i).nextClicked == PageAt(other, i).nextClicked;
      VisitedOnlyFollowsNextLinks(pages, other, i + 1, maxPages);
    }
  }

  /** A non-empty text after `.strip()`, the filter of `top_k_review_texts`
      (None stands for a missing or None "review_text"). */
  function TextOf(rv: Option<string>): Option<string> {
    var t := Strip(rv.GetOr(""));
    if t != "" then Some(t) else None
  }

  /** The texts `top_k_review_texts` can pick, in order. */
  function Texts(reviews: seq<Option<string>>): seq<string> {
    FilterMap(reviews, TextOf)
  }

  /** The result of `top_k_review_texts(reviews, k)`: for k > 0 the first
      k texts, padded with "" to exactly k; nothing for k <= 0. */
  function TopKTexts(reviews: seq<Option<string>>, k: int): (r: seq<string>)
    ensures |r| == if k > 0 then k else 0
  {
    if k <= 0 then []
    else
      var t := Take(Texts(reviews), k);
      t + seq(k - |t|, _ => "")
  }

  /** The first loop of `top_k_review_texts`: append each non-empty
      stripped text and break once k are held, a check made after every
      review. */
  method CollectTexts(reviews: seq<Option<string>>, k: int) returns (out: seq<string>)
    ensures k > 0 ==> out == Take(Texts(reviews), k)
    ensures |out| <= (if k > 0 then k else 1)
  {
    out := [];
    for i := 0 to |reviews|
      invariant out == FilterMap(reviews[..i], TextOf)
      invariant i > 0 ==> |out| < k
    {
      var t := Strip(reviews[i].GetOr(""));
      TextsStep(reviews, i, out, t);
      if t != "" {
        out := out + [t];
      }
      if |out| >= k {
        if k > 0 {
          TextsBound(reviews, i + 1, out, k);
        }
        return;
      }
    }
    if k > 0 {
      TextsAll(reviews, out, k);
    }
  }

  lemma TextsStep(reviews: seq<Option<string>>, i: nat, out: seq<string>, t: string)
    requires i < |reviews| && out == FilterMap(reviews[..i], TextOf) && t == Strip(reviews[i].GetOr(""))
    ensures FilterMap(reviews[..i + 1], TextOf) == if t != "" then out + [t] else out
  {
    FilterMapStep(reviews, i, TextOf);
  }

  lemma TextsAll(reviews: seq<Option<string>>, out: seq<string>, k: nat)
    requires out == FilterMap(reviews[..|reviews|], TextOf) && |out| < k
    ensures out == Take(Texts(reviews), k)
  {
    assert reviews[..|reviews|] == reviews;
    TakeAll(out, k);
  }

  /** Once k texts are held, they are the first k of all the texts. */
  lemma TextsBound(reviews: seq<Option<string>>, i: nat, out: seq<string>, k: nat)
    requires i <= |reviews| && out == FilterMap(reviews[..i], TextOf) && |out| == k
    ensures out == Take(Texts(reviews), k)
  {
    TakeAtBound(reviews, i, TextOf, k);
  }

  /** `top_k_review_texts`: the texts, padded with "" to k, sliced `[:k]`. */
  method TopK(reviews: seq<Option<string>>, k: int) returns (out: seq<string>)
    ensures out == TopKTexts(reviews, k)
  {
    out := CollectTexts(reviews, k);
    ghost var kept := out;
    while |out| < k
      invariant kept <= out
      invariant forall j :: |kept| <= j < |out| ==> out[j] == ""
      invariant |out| <= (if k > |kept| then k else |kept|)
      decreases k - |out|
    {
      out := out + [""];
    }
    out := PyPrefix(out, k);
    if k > 0 {
      TopKEnds(reviews, k, kept, out);
    }
  }

  lemma TopKEnds(reviews: seq<Option<string>>, k: int, kept: seq<string>, out: seq<string>)
    requires k > 0
    requires kept == Take(Texts(reviews), k)
    requires kept <= out && |out| == k
    requires forall j :: |kept| <= j < |out| ==> out[j] == ""
    ensures out == TopKTexts(reviews, k)
  {
    var t := TopKTexts(reviews, k);
    forall j | 0 <= j < k ensures out[j] == t[j] {
      if j >= |kept| {
        assert t[j] == seq(k - |kept|, _ => "")[j - |kept|];
      }
    }
  }

  /** The first k entries are the texts in order while they last, then "". */
  lemma TopKShape(reviews: seq<Option<string>>, k: int, j: nat)
    requires 0 <= j < k
    ensures j < |Texts(reviews)| ==> TopKTexts(reviews, k)[j] == Texts(reviews)[j]
    ensures j >= |Texts(reviews)| ==> TopKTexts(reviews, k)[j] == ""
  {
    var t := Take(Texts(reviews), k);
    if j >= |t| {
      assert TopKTexts(reviews, k)[j] == seq(k - |t|, _ => "")[j - |t|];
    }
  }
}

=== FILE: rows.dfy ===
/** The table `scrape_products` builds (Selenium_Amazon.py:657-769): the
    product tiles are found and selected, each selected product is visited,
    and each visit becomes one row with exactly five domestic and five
    foreign review columns and the joined texts of all reviews. */
module Rows {
  import opened Wrappers
  import opened Text
  import opened Resolver
  import opened Collect
  import opened Reviews
  import opened Tiles
  import opened Details

  /** One row of the table. `review` and `foreignReview` are the columns
      `Review_1..5` and `Foreign_Review_1..5`. */
  datatype Row = Row(
    number: nat,
    title: string,
    price: string,
    url: string,
    asin: string,
    overallRating: string,
    numRatings: string,
    productLink: string,
    warrantyHeading: string,
    warrantyText: string,
    allReviews: string,
    allForeignReviews: string,
    foreignCount: nat,
    review: seq<string>,
    foreignReview: seq<string>)

  /** The number of review columns of each kind. */
  const Columns: nat := 5

  /** The `k` used for the joined texts. */
  const ConcatLimit: nat := 999

  const Separator: string := " ||| "

  /** The `review_text` of each review, as `top_k_review_texts` reads it. */
  function ReviewTexts(rs: seq<Review>): (r: seq<Option<string>>)
    ensures |r| == |rs|
    ensures forall i :: 0 <= i < |rs| ==> r[i] == Some(rs[i].text)
  {
    seq(|rs|, i requires 0 <= i < |rs| => Some(rs[i].text))
  }

  function NonBlankOf(t: string): Option<string> {
    if t != "" then Some(t) else None
  }

  /** `[t for t in ts if t]`. */
  function NonBlank(ts: seq<string>): seq<string> {
    FilterMap(ts, NonBlankOf)
  }

  /** `" ||| ".join` of the non-blank entries of the top 999 texts. */
  function ConcatTexts(rs: seq<Review>): string {
    Join(NonBlank(TopKTexts(ReviewTexts(rs), ConcatLimit)), Separator)
  }

  /** The row of the `n`-th product (counting from 1). */
  function RowOf(n: nat, info: Info, d: Details): Row {
    Row(n, info.title, info.price, info.url, info.asin,
        d.overallRating, d.numRatings, d.productLink, d.warrantyHeading, d.warrantyText,
        ConcatTexts(d.reviewsFull), ConcatTexts(d.reviewsForeign), |d.reviewsForeign|,
        TopKTexts(ReviewTexts(d.reviewsFull), Columns),
        TopKTexts(ReviewTexts(d.reviewsForeign), Columns))
  }

  /** The rows of the selected products: `visit(n)` is what the `n`-th
      product page shows. */
  function RowsOf(infos: seq<Info>, visit: nat -> ProductPage, lim: Limits): (rows: seq<Row>)
    ensures |rows| == |infos|
    ensures forall i :: 0 <= i < |infos| ==> rows[i] == RowAt(infos, visit, lim, i)
  {
    seq(|infos|, i requires 0 <= i < |infos| => RowAt(infos, visit, lim, i))
  }

  /** The row of the product at position `i` of the selection. */
  function RowAt(infos: seq<Info>, visit: nat -> ProductPage, lim: Limits, i: nat): Row
    requires i < |infos|
  {
    RowOf(i + 1, infos[i], DetailsOf(infos[i].url, visit(i + 1), lim))
  }

  /** One iteration of the product loop: the row is built from the visit's
      record. */
  method MakeRow(n: nat, info: Info, d: Details) returns (row: Row)
    ensures row == RowOf(n, info, d)
  {
    var domesticTop := TopK(ReviewTexts(d.reviewsFull), Columns);
    var foreignTop := TopK(ReviewTexts(d.reviewsForeign), Columns);
    var domesticAll := TopK(ReviewTexts(d.reviewsFull), ConcatLimit);
    var foreignAll := TopK(ReviewTexts(d.reviewsForeign), ConcatLimit);
    row := Row(n, info.title, info.price, info.url, info.asin,
               d.overallRating, d.numRatings, d.productLink, d.warrantyHeading, d.warrantyText,
               Join(NonBlank(domesticAll), Separator), Join(NonBlank(foreignAll), Separator),
               |d.reviewsForeign|, domesticTop, foreignTop);
  }

  /** The product loop: every selected product is visited and gives a row,
      numbered from 1 in selection order. */
  method BuildRows(infos: seq<Info>, visit: nat -> ProductPage, lim: Limits) returns (rows: seq<Row>)
    ensures rows == RowsOf(infos, visit, lim)
  {
    rows := [];
    for i := 0 to |infos|
      invariant rows == RowsOf(infos[..i], visit, lim)
    {
      var d := ScrapeProductDetails(infos[i].url, visit(i + 1), lim);
      var row := MakeRow(i + 1, infos[i], d);
      RowsOfStep(infos, visit, lim, i, rows);
      rows := rows + [row];
    }
    assert infos[..|infos|] == infos;
  }

  lemma RowsOfStep(infos: seq<Info>, visit: nat -> ProductPage, lim: Limits, i: nat, rows: seq<Row>)
    requires i < |infos| && rows == RowsOf(infos[..i], visit, lim)
    ensures rows + [RowAt(infos, visit, lim, i)] == RowsOf(infos[..i + 1], visit, lim)
  {
    var next := RowsOf(infos[..i + 1], visit, lim);
    forall j | 0 <= j <= i ensures next[j] == (rows + [RowAt(infos, visit, lim, i)])[j] {
      assert infos[..i + 1][j] == infos[j];
      if j < i {
        assert infos[..i][j] == infos[j];
      }
    }
  }

  predicate NonEmptyTiles(ts: seq<Tile>) {
    ts != []
  }

  /** The tiles the container loop settles on: the first selector that
      found any. */
  function TilesOf(containers: seq<Option<seq<Tile>>>): seq<Tile> {
    FirstValid(containers, NonEmptyTiles).GetOr([])
  }

  /** The table `scrape_products` returns: none when no tile was found,
      else a row per selected tile. */
  function ProductsOf(containers: seq<Option<seq<Tile>>>, maxProducts: int,
                      visit: nat -> ProductPage, lim: Limits): seq<Row> {
    var tiles := TilesOf(containers);
    if tiles == [] then []
    else RowsOf(Take(FilterMap(PyPrefix(tiles, 2 * maxProducts), Selected), Cap(maxProducts)), visit, lim)
  }

  /** `scrape_products`: the container loop (which assigns before it
      checks), the tile selection and the product loop. */
  method ScrapeProducts(containers: seq<Option<seq<Tile>>>, maxProducts: int,
                        visit: nat -> ProductPage, lim: Limits) returns (rows: seq<Row>)
    ensures rows == ProductsOf(containers, maxProducts, visit, lim)
  {
    var tiles := ReadUntilValid(containers, NonEmptyTiles, []);
    LoopShapesAgree(containers, NonEmptyTiles, []);
    if tiles == [] {
      return [];
    }
    var infos := SelectTiles(tiles, maxProducts);
    rows := BuildRows(infos, visit, lim);
  }

  // Properties

  /** The texts of reviews whose texts are already stripped and non-empty
      are those texts, in order. */
  function TextsIn(rs: seq<Review>): (r: seq<string>)
    ensures |r| == |rs|
    ensures forall i :: 0 <= i < |rs| ==> r[i] == rs[i].text
  {
    seq(|rs|, i requires 0 <= i < |rs| => rs[i].text)
  }

  predicate CleanTexts(rs: seq<Review>) {
    forall i :: 0 <= i < |rs| ==> rs[i].text != "" && Stripped(rs[i].text)
  }

  lemma {:induction false} TextsOfClean(rs: seq<Review>)
    requires CleanTexts(rs)
    ensures Texts(ReviewTexts(rs)) == TextsIn(rs)
    decreases |rs|
  {
    if rs != [] {
      var init := rs[..|rs| - 1];
      var last := rs[|rs| - 1];
      InitOfTexts(rs);
      TextsOfClean(init);
      assert TextOf(Some(last.text)) == Some(last.text);
    }
  }

  /** Dropping the last review drops the last entry of both lists. */
  lemma InitOfTexts(rs: seq<Review>)
    requires rs != [] && CleanTexts(rs)
    ensures ReviewTexts(rs)[..|rs| - 1] == ReviewTexts(rs[..|rs| - 1])
    ensures TextsIn(rs) == TextsIn(rs[..|rs| - 1]) + [rs[|rs| - 1].text]
    ensures CleanTexts(rs[..|rs| - 1])
  {
    var init := rs[..|rs| - 1];
    forall i | 0 <= i < |init| ensures init[i].text != "" && Stripped(init[i].text) {
      assert init[i] == rs[i];
    }
  }

  /** Domestic and foreign records have clean texts. */
  lemma DetailsTextsClean(productUrl: string, p: ProductPage, lim: Limits)
    ensures CleanTexts(DetailsOf(productUrl, p, lim).reviewsFull)
    ensures CleanTexts(DetailsOf(productUrl, p, lim).reviewsForeign)
  {
    DetailsReviewsGood(productUrl, p, lim);
  }

  /** Column j of `Review_1..5` holds the text of the j-th domestic review,
      "" past the last one; likewise for the foreign columns. */
  lemma ReviewColumns(n: nat, info: Info, productUrl: string, p: ProductPage, lim: Limits, j: nat)
    requires j < Columns
    ensures var d := DetailsOf(productUrl, p, lim);
            var row := RowOf(n, info, d);
            |row.review| == Columns && |row.foreignReview| == Columns
            && row.review[j] == (if j < |d.reviewsFull| then d.reviewsFull[j].text else "")
            && row.foreignReview[j] == (if j < |d.reviewsForeign| then d.reviewsForeign[j].text else "")
  {
    var d := DetailsOf(productUrl, p, lim);
    DetailsTextsClean(productUrl, p, lim);
    TextsOfClean(d.reviewsFull);
    TextsOfClean(d.reviewsForeign);
    TopKShape(ReviewTexts(d.reviewsFull), Columns, j);
    TopKShape(ReviewTexts(d.reviewsForeign), Columns, j);
  }

  /** The joined column holds the first 999 texts in order, separated by
      " ||| ": the padding of the top-k list never reaches it. */
  lemma ConcatIsFirstTexts(rs: seq<Review>)
    requires CleanTexts(rs)
    ensures ConcatTexts(rs) == Join(Take(TextsIn(rs), ConcatLimit), Separator)
  {
    NonBlankOfTopK(ReviewTexts(rs), ConcatLimit);
    TextsOfClean(rs);
  }

  /** Dropping the blanks of a top-k list leaves exactly the texts it took. */
  lemma NonBlankOfTopK(x: seq<Option<string>>, k: nat)
    requires k > 0
    ensures NonBlank(TopKTexts(x, k)) == Take(Texts(x), k)
  {
    var t := Take(Texts(x), k);
    var pad := seq(k - |t|, _ => "");
    FilterMapAll(x, TextOf, NonEmpty);
    AllTake(Texts(x), k, NonEmpty);
    FilterMapAppend(t, pad, NonBlankOf);
    NonBlankKeeps(t);
    NonBlankDropsBlanks(pad);
  }

  lemma {:induction false} NonBlankKeeps(ts: seq<string>)
    requires forall i :: 0 <= i < |ts| ==> NonEmpty(ts[i])
    ensures NonBlank(ts) == ts
    decreases |ts|
  {
    if ts != [] {
      var init := ts[..|ts| - 1];
      NonBlankKeeps(init);
      assert init + [ts[|ts| - 1]] == ts;
    }
  }

  lemma {:induction false} NonBlankDropsBlanks(ts: seq<string>)
    requires forall i :: 0 <= i < |ts| ==> ts[i] == ""
    ensures NonBlank(ts) == []
    decreases |ts|
  {
    if ts != [] {
      NonBlankDropsBlanks(ts[..|ts| - 1]);
    }
  }

  /** Every selected product gives exactly one row; the rows are numbered
      1, 2, ... in selection order and carry their tile's title, price, url
      and ASIN, and the foreign-review count of their visit. */
  lemma RowsFollowInfos(infos: seq<Info>, visit: nat -> ProductPage, lim: Limits, i: nat)
    requires i < |infos|
    ensures var r := RowsOf(infos, visit, lim)[i];
            r.number == i + 1
            && r.title == infos[i].title && r.price == infos[i].price
            && r.url == infos[i].url && r.asin == infos[i].asin
            && r.foreignCount == |DetailsOf(infos[i].url, visit(i + 1), lim).reviewsForeign|
  {
  }

  /** The table has at most `max_products` rows (one when the bound is not
      positive), none when no tile was found, and each row's title is a
      tile title that passed its check. */
  lemma ProductsShape(containers: seq<Option<seq<Tile>>>, maxProducts: int,
                      visit: nat -> ProductPage, lim: Limits)
    ensures |ProductsOf(containers, maxProducts, visit, lim)| <= Cap(maxProducts)
    ensures (forall i :: 0 <= i < |containers| ==> containers[i].None? || containers[i].value == [])
              ==> ProductsOf(containers, maxProducts, visit, lim) == []
    ensures forall i :: 0 <= i < |ProductsOf(containers, maxProducts, visit, lim)| ==>
              TitleOk(ProductsOf(containers, maxProducts, visit, lim)[i].title)
  {
    var tiles := TilesOf(containers);
    if (forall i :: 0 <= i < |containers| ==> containers[i].None? || containers[i].value == []) {
      assert forall i :: 0 <= i < |containers| ==> !PassesAt(containers, NonEmptyTiles, i);
    }
    if tiles != [] {
      var infos := Take(FilterMap(PyPrefix(tiles, 2 * maxProducts), Selected), Cap(maxProducts));
      forall i | 0 <= i < |infos| ensures TitleOk(infos[i].title) {
        SelectionKeepsGood(tiles, maxProducts, i);
      }
    }
  }
}

=== FILE: sharelink.dfy ===
/** `get_product_link` (Selenium_Amazon.py:137-184) once the share and
    copy-link buttons have been tried: the clipboard is polled six times,
    then the browser's current URL is the fallback, then a failure text.

    The clipboard is data: `pastes[i]` is what the i-th `pyperclip.paste()`
    returned, None when it raised; polls past the end of `pastes` read
    nothing. `setupFails` says that a call before the polling loop raised
    (the clipboard could not be cleared), which the outer `except` answers
    with the current URL. */
module ShareLink {
  import opened Wrappers
  import opened Text
  import opened Resolver

  /** `range(6)`: the number of clipboard polls. */
  const Polls: nat := 6

  const LinkFailed: string := "Link extraction failed"

  /** `re.search(r"(amazon\.|a\.co|amzn\.to)", s, re.I)`. The pattern's
      letters have no case partners outside ASCII, so ASCII lower-casing
      decides the match exactly. */
  predicate LinkLike(s: string) {
    var l := Lower(s);
    Contains(l, "amazon.") || Contains(l, "a.co") || Contains(l, "amzn.to")
  }

  /** The test a clipboard value must pass: non-empty and link-like. */
  predicate CopiedLink(s: string) {
    s != "" && LinkLike(s)
  }

  /** Poll `i`: `pyperclip.paste().strip()`, "" when the paste raised. */
  function Poll(pastes: seq<Option<string>>, i: nat): string {
    if i < |pastes| && pastes[i].Some? then Strip(pastes[i].value) else ""
  }

  /** The six polls, each of which pastes a string. */
  function Polled(pastes: seq<Option<string>>): (r: seq<Option<string>>)
    ensures |r| == Polls
    ensures forall i :: 0 <= i < Polls ==> r[i] == Some(Poll(pastes, i))
  {
    seq(Polls, i requires 0 <= i < Polls => Some(Poll(pastes, i)))
  }

  /** The current URL is accepted as the link when it looks like a product
      page (both tests case-sensitive). */
  predicate ProductPageUrl(cur: string) {
    Contains(cur, "amazon.") && Contains(cur, "/dp/")
  }

  /** What `get_product_link` returns. */
  function ProductLink(setupFails: bool, pastes: seq<Option<string>>, cur: string): string {
    if setupFails then cur
    else
      match FirstValid(Polled(pastes), CopiedLink)
      case Some(link) => link
      case None => if ProductPageUrl(cur) then cur else LinkFailed
  }

  /** The polling loop, which returns the first poll that passes (the
      check-then-assign resolver over the six polls), and its two
      fallbacks. */
  method GetProductLink(setupFails: bool, pastes: seq<Option<string>>, cur: string) returns (link: string)
    ensures link == ProductLink(setupFails, pastes, cur)
  {
    if setupFails {
      return cur;
    }
    var copied := ResolveFirst(Polled(pastes), CopiedLink, "");
    if copied != "" {
      return copied;
    }
    if ProductPageUrl(cur) {
      return cur;
    }
    return LinkFailed;
  }

  /** The result is, in order of preference, the first link-like poll, the
      current URL when it looks like a product page, the failure text. */
  lemma ProductLinkCases(pastes: seq<Option<string>>, cur: string)
    ensures var link := ProductLink(false, pastes, cur);
            (exists i :: 0 <= i < Polls && link == Poll(pastes, i) && CopiedLink(link)
                         && forall j :: 0 <= j < i ==> !CopiedLink(Poll(pastes, j)))
            || ((forall i :: 0 <= i < Polls ==> !CopiedLink(Poll(pastes, i)))
                && link == (if ProductPageUrl(cur) then cur else LinkFailed))
  {
    var polled := Polled(pastes);
    var k := FirstValidIndex(polled, CopiedLink);
    if k < Polls {
      forall j | 0 <= j < k ensures !CopiedLink(Poll(pastes, j)) {
        assert !PassesAt(polled, CopiedLink, j);
      }
    } else {
      forall i | 0 <= i < Polls ensures !CopiedLink(Poll(pastes, i)) {
        assert !PassesAt(polled, CopiedLink, i);
      }
    }
  }

  /** At most six polls are made: clipboard values after the sixth are
      never looked at. */
  lemma ProductLinkReadsSix(pastes: seq<Option<string>>, more: seq<Option<string>>, cur: string)
    requires |pastes| >= Polls
    ensures ProductLink(false, pastes + more, cur) == ProductLink(false, pastes, cur)
  {
    forall i | 0 <= i < Polls ensures Poll(pastes + more, i) == Poll(pastes, i) {
      assert (pastes + more)[i] == pastes[i];
    }
    assert Polled(pastes + more) == Polled(pastes);
  }

  /** A link-like first read is returned at once, whatever follows. */
  lemma FirstReadWins(x: string, rest: seq<Option<string>>, cur: string)
    requires CopiedLink(Strip(x))
    ensures ProductLink(false, [Some(x)] + rest, cur) == Strip(x)
  {
    var polled := Polled([Some(x)] + rest);
    assert Poll([Some(x)] + rest, 0) == Strip(x);
    FirstValidIndexIs(polled, CopiedLink, 0);
  }

  /** With nothing ever copied, the current URL decides. */
  lemma EmptyClipboardFallsBack(cur: string)
    ensures ProductLink(false, [], cur) == (if ProductPageUrl(cur) then cur else LinkFailed)
  {
    var polled := Polled([]);
    forall i | 0 <= i < Polls ensures !PassesAt(polled, CopiedLink, i) {
      assert Poll([], i) == "";
    }
    FirstValidIndexIs(polled, CopiedLink, Polls);
  }
}

=== FILE: text.dfy ===
/** String helpers with the meaning Python gives them: `str.isspace` and the
    `\s` class of `re`, `str.strip`, ASCII `str.lower`, substring `in`,
    prefix slicing `s[:n]` (negative n included) and `sep.join`. */
module Text {

  /** Python's `str.isspace()`, which is also what `\s` matches in a str
      pattern: the C0 separators, space, NEL, NBSP and the Unicode spaces. */
  predicate IsSpace(c: char) {
    ('\t' <= c <= '\r') || ('\U{1C}' <= c <= ' ') || c == '\U{85}' || c == '\U{A0}'
    || c == '\U{1680}' || ('\U{2000}' <= c <= '\U{200A}') || c == '\U{2028}'
    || c == '\U{2029}' || c == '\U{202F}' || c == '\U{205F}' || c == '\U{3000}'
  }

  predicate NoSpace(s: string) {
    forall i :: 0 <= i < |s| ==> !IsSpace(s[i])
  }

  predicate AllSpace(s: string) {
    forall i :: 0 <= i < |s| ==> IsSpace(s[i])
  }

  /** Neither end of `s` is whitespace: what `strip` leaves. */
  predicate Stripped(s: string) {
    s == [] || (!IsSpace(s[0]) && !IsSpace(s[|s| - 1]))
  }

  /** `s.lstrip()`: drops the leading whitespace run. */
  function TrimStart(s: string): (r: string)
    ensures |r| <= |s| && r == s[|s| - |r|..]
    ensures AllSpace(s[..|s| - |r|])
    ensures r == [] || !IsSpace(r[0])
  {
    if s != [] && IsSpace(s[0]) then
      var t := s[1..];
      var r := TrimStart(t);
      assert r == s[|s| - |r|..] by { assert t[|t| - |r|..] == s[|s| - |r|..]; }
      assert s[..|s| - |r|] == [s[0]] + t[..|t| - |r|];
      AllSpaceConcat([s[0]], t[..|t| - |r|]);
      r
    else
      assert s[..0] == [];
      s
  }

  /** `s.rstrip()`: drops the trailing whitespace run. */
  function TrimEnd(s: string): (r: string)
    ensures |r| <= |s| && r == s[..|r|]
    ensures AllSpace(s[|r|..])
    ensures r == [] || !IsSpace(r[|r| - 1])
  {
    if s != [] && IsSpace(s[|s| - 1]) then
      var t := s[..|s| - 1];
      var r := TrimEnd(t);
      assert r == s[..|r|] by { assert t[..|r|] == s[..|r|]; }
      assert s[|r|..] == t[|r|..] + [s[|s| - 1]];
      AllSpaceConcat(t[|r|..], [s[|s| - 1]]);
      r
    else
      assert s[|s|..] == [];
      s
  }

  /** `s.strip()`. */
  function Strip(s: string): (r: string)
    ensures Stripped(r)
    ensures |r| <= |s|
    ensures r == [] <==> AllSpace(s)
    ensures Stripped(s) ==> r == s
  {
    StripEmptyIffAllSpace(s);
    TrimEnd(TrimStart(s))
  }

  lemma StripEmptyIffAllSpace(s: string)
    ensures TrimEnd(TrimStart(s)) == [] <==> AllSpace(s)
  {
    if TrimEnd(TrimStart(s)) == [] {
      EmptyStripAllSpace(s);
    }
    if AllSpace(s) {
      AllSpaceStripsEmpty(s);
    }
  }

  lemma AllSpaceStripsEmpty(s: string)
    requires AllSpace(s)
    ensures TrimStart(s) == []
  {
    assert s + [] == s;
    TrimStartAllSpace(s, []);
  }

  lemma {:induction false} EmptyStripAllSpace(s: string)
    requires TrimEnd(TrimStart(s)) == []
    ensures AllSpace(s)
    decreases |s|
  {
    if s != [] {
      if IsSpace(s[0]) {
        EmptyStripAllSpace(s[1..]);
        forall i | 0 <= i < |s| ensures IsSpace(s[i]) {
          if i > 0 { assert s[i] == s[1..][i - 1]; }
        }
      } else {
        assert false;
      }
    }
  }

  lemma AllSpaceConcat(a: string, b: string)
    requires AllSpace(a) && AllSpace(b)
    ensures AllSpace(a + b)
  {
    forall i | 0 <= i < |a + b| ensures IsSpace((a + b)[i]) {
      if i >= |a| { assert (a + b)[i] == b[i - |a|]; }
    }
  }

  /** What `strip` leaves is a slice of its input. */
  lemma StripSlice(s: string) returns (a: nat, b: nat)
    ensures a <= b <= |s| && Strip(s) == s[a..b]
  {
    var t := TrimStart(s);
    a := |s| - |t|;
    var u := TrimEnd(t);
    b := a + |u|;
    SliceOfSuffix(s, a, |u|);
  }

  lemma SliceOfSuffix<T>(s: seq<T>, a: nat, n: nat)
    requires a + n <= |s|
    ensures s[a..][..n] == s[a..a + n]
  {
  }

  /** Whitespace runs inside a stripped text survive `strip` untouched. */
  lemma StripKeepsNoSpace(s: string)
    requires NoSpace(s)
    ensures Strip(s) == s
  {
  }

  function LowerChar(c: char): char {
    if 'A' <= c <= 'Z' then (c as int + 32) as char else c
  }

  /** `s.lower()` on the ASCII letters. */
  function Lower(s: string): (r: string)
    ensures |r| == |s|
    ensures forall i :: 0 <= i < |s| ==> r[i] == LowerChar(s[i])
  {
    seq(|s|, i requires 0 <= i < |s| => LowerChar(s[i]))
  }

  /** Python's `t in s` on strings. */
  predicate Contains(s: string, t: string) {
    exists i :: 0 <= i <= |s| - |t| && t <= s[i..]
  }

  /** `s[:n]` for any int n: a negative n counts from the end. */
  function PyPrefix<T>(s: seq<T>, n: int): (r: seq<T>)
    ensures r <= s
    ensures n >= 0 ==> |r| == if n <= |s| then n else |s|
    ensures n < 0 ==> |r| == if |s| + n >= 0 then |s| + n else 0
  {
    if n >= 0 then (if n <= |s| then s[..n] else s)
    else if |s| + n >= 0 then s[..|s| + n] else []
  }

  /** `sep.join(parts)`. */
  function Join(parts: seq<string>, sep: string): string {
    if |parts| == 0 then ""
    else if |parts| == 1 then parts[0]
    else parts[0] + sep + Join(parts[1..], sep)
  }

  /** `re.sub(r"\s+", rep, s)`: each maximal whitespace run becomes `rep`. */
  function SubstituteSpaceRuns(s: string, rep: string): (r: string)
    decreases |s|
  {
    if s == [] then []
    else if IsSpace(s[0]) then rep + SubstituteSpaceRuns(TrimStart(s), rep)
    else [s[0]] + SubstituteSpaceRuns(s[1..], rep)
  }

  /** Every character of the result is a non-space of the input or one of
      `rep`: so a class that holds both holds of the result (with the class of
      non-spaces: a replacement without whitespace leaves none behind). */
  lemma {:induction false} SubstituteSpaceRunsWithin(s: string, rep: string, ok: char -> bool)
    requires forall i :: 0 <= i < |s| && !IsSpace(s[i]) ==> ok(s[i])
    requires forall i :: 0 <= i < |rep| ==> ok(rep[i])
    ensures forall i :: 0 <= i < |SubstituteSpaceRuns(s, rep)| ==> ok(SubstituteSpaceRuns(s, rep)[i])
    decreases |s|
  {
    if s == [] {
    } else if IsSpace(s[0]) {
      var t := TrimStart(s);
      SuffixNonSpaces(s, |s| - |t|, ok);
      SubstituteSpaceRunsWithin(t, rep, ok);
      AllOkConcat(rep, SubstituteSpaceRuns(t, rep), ok);
    } else {
      SuffixNonSpaces(s, 1, ok);
      SubstituteSpaceRunsWithin(s[1..], rep, ok);
      AllOkConcat([s[0]], SubstituteSpaceRuns(s[1..], rep), ok);
    }
  }

  lemma SuffixNonSpaces(s: string, d: nat, ok: char -> bool)
    requires d <= |s|
    requires forall i :: 0 <= i < |s| && !IsSpace(s[i]) ==> ok(s[i])
    ensures forall i :: 0 <= i < |s[d..]| && !IsSpace(s[d..][i]) ==> ok(s[d..][i])
  {
    forall i | 0 <= i < |s[d..]| && !IsSpace(s[d..][i]) ensures ok(s[d..][i]) {
      assert s[d..][i] == s[d + i];
    }
  }

  lemma AllOkConcat(a: string, b: string, ok: char -> bool)
    requires forall i :: 0 <= i < |a| ==> ok(a[i])
    requires forall i :: 0 <= i < |b| ==> ok(b[i])
    ensures forall i :: 0 <= i < |a + b| ==> ok((a + b)[i])
  {
    forall i | 0 <= i < |a + b| ensures ok((a + b)[i]) {
      if i >= |a| { assert (a + b)[i] == b[i - |a|]; }
    }
  }

  /** Text with no whitespace is left as it is. */
  lemma {:induction false} SubstituteSpaceRunsNoSpace(s: string, rep: string)
    requires NoSpace(s)
    ensures SubstituteSpaceRuns(s, rep) == s
    decreases |s|
  {
    if s != [] {
      assert !IsSpace(s[0]);
      SubstituteSpaceRunsNoSpace(s[1..], rep);
      assert [s[0]] + s[1..] == s;
    }
  }

  /** One whitespace run between two words becomes exactly one `rep`. */
  lemma {:induction false} SubstituteSpaceRunsSplit(x: string, w: string, y: string, rep: string)
    requires w != [] && AllSpace(w)
    requires x == [] || !IsSpace(x[|x| - 1])
    requires y == [] || !IsSpace(y[0])
    ensures SubstituteSpaceRuns(x + w + y, rep)
         == SubstituteSpaceRuns(x, rep) + rep + SubstituteSpaceRuns(y, rep)
    decreases |x|
  {
    var sy := SubstituteSpaceRuns(y, rep);
    if x == [] {
      ConcatAssoc(x, w, y);
      ConcatEmptyLeft(x, w + y);
      TrimStartAllSpace(w, y);
      UnfoldAtSpace(w + y, rep);
      assert SubstituteSpaceRuns(x, rep) == [];
      ConcatEmptyLeft(SubstituteSpaceRuns(x, rep), rep);
    } else if IsSpace(x[0]) {
      // x's first run ends inside x, since x ends with a non-space
      var t := TrimStart(x);
      SubstituteSpaceRunsSplit(t, w, y, rep);
      TrimStartAppend(x, w + y);
      ConcatAssoc(x, w, y);
      ConcatAssoc(t, w, y);
      UnfoldAtSpace(x + w + y, rep);
      UnfoldAtSpace(x, rep);
      var st := SubstituteSpaceRuns(t, rep);
      ConcatAssoc4(rep, st, rep, sy);
    } else {
      SubstituteSpaceRunsSplit(x[1..], w, y, rep);
      ConcatTail(x, w, y);
      UnfoldAtChar(x + w + y, rep);
      UnfoldAtChar(x, rep);
      var st := SubstituteSpaceRuns(x[1..], rep);
      ConcatAssoc4([x[0]], st, rep, sy);
    }
  }

  lemma ConcatEmptyLeft<T>(x: seq<T>, z: seq<T>)
    requires x == []
    ensures x + z == z
  {
  }

  lemma ConcatAssoc<T>(x: seq<T>, w: seq<T>, y: seq<T>)
    ensures x + w + y == x + (w + y)
  {
  }

  lemma ConcatAssoc4<T>(a: seq<T>, b: seq<T>, c: seq<T>, d: seq<T>)
    ensures a + (b + c + d) == (a + b) + c + d
  {
  }

  lemma ConcatTail<T>(x: seq<T>, w: seq<T>, y: seq<T>)
    requires x != []
    ensures (x + w + y)[0] == x[0] && (x + w + y)[1..] == x[1..] + w + y
  {
  }

  lemma UnfoldAtSpace(s: string, rep: string)
    requires s != [] && IsSpace(s[0])
    ensures SubstituteSpaceRuns(s, rep) == rep + SubstituteSpaceRuns(TrimStart(s), rep)
  {
  }

  lemma UnfoldAtChar(s: string, rep: string)
    requires s != [] && !IsSpace(s[0])
    ensures SubstituteSpaceRuns(s, rep) == [s[0]] + SubstituteSpaceRuns(s[1..], rep)
  {
  }

  lemma {:induction false} TrimStartAllSpace(w: string, y: string)
    requires AllSpace(w)
    requires y == [] || !IsSpace(y[0])
    ensures TrimStart(w + y) == y
    decreases |w|
  {
    if w != [] {
      assert (w + y)[1..] == w[1..] + y;
      TrimStartAllSpace(w[1..], y);
    }
  }

  lemma {:induction false} TrimStartAppend(x: string, z: string)
    requires x != [] && !IsSpace(x[|x| - 1])
    ensures TrimStart(x + z) == TrimStart(x) + z
    decreases |x|
  {
    if IsSpace(x[0]) {
      assert (x + z)[1..] == x[1..] + z;
      TrimStartAppend(x[1..], z);
    }
  }
}

=== FILE: tiles.dfy ===
/** The search-results side of `scrape_products` (Selenium_Amazon.py:524-576
    and :672-709): the field reads of one product tile, and the selection of
    the tiles worth visiting.

    A tile is data: the `data-asin` attribute and, for each field, what each
    locator of its fallback list read, in order (None when the lookup
    raised). */
module Tiles {
  import opened Wrappers
  import opened Text
  import opened Resolver
  import opened Collect
  import opened AmazonUrls

  /** One search-result tile. `asin` is the `data-asin` attribute (None when
      the attribute is absent); `stale` says that reading it in the selection
      loop raised, `infoFails` that reading it again inside the tile parser
      raised. `titles` and `prices` hold the text each locator read,
      `hrefs` the `href` each url locator read (None also when the element
      had no href). */
  datatype Tile = Tile(
    asin: Option<string>,
    stale: bool,
    infoFails: bool,
    titles: seq<Option<string>>,
    hrefs: seq<Option<string>>,
    prices: seq<Option<string>>)

  /** The dict `get_product_info_from_element` returns. */
  datatype Info = Info(title: string, url: string, price: string, asin: string)

  const NoPrice: string := "Price not available"
  const NotFound: string := "Not found"

  /** The title check: longer than 10 characters and not an ad. */
  predicate TitleOk(t: string) {
    t != "" && |t| > 10 && !("sponsored" <= Lower(t))
  }

  /** The url check: an href pointing at a product page. */
  predicate ProductHref(h: string) {
    h != "" && (Contains(h, DpTag) || Contains(h, "/gp/"))
  }

  /** The price check: a text with a dollar sign. */
  predicate PriceOk(t: string) {
    t != "" && '$' in t
  }

  /** The tile's title: the first stripped read that passes, "" otherwise. */
  function TitleOf(titles: seq<Option<string>>): string {
    FirstValid(StripReads(titles), TitleOk).GetOr("")
  }

  /** The tile's url: the first product href, made absolute; "" otherwise. */
  function UrlOf(hrefs: seq<Option<string>>): string {
    match FirstValid(hrefs, ProductHref)
    case Some(h) => Absolutise(h)
    case None => ""
  }

  /** The tile's price: the first stripped read with a '$', else the
      placeholder. */
  function PriceOf(prices: seq<Option<string>>): string {
    var p := FirstValid(StripReads(prices), PriceOk).GetOr("");
    if p != "" then p else NoPrice
  }

  /** `asin or "Not found"`. */
  function AsinOr(asin: Option<string>): string {
    if asin.Some? && asin.value != "" then asin.value else NotFound
  }

  /** `get_product_info_from_element`: None when a read outside the field
      loops raised. */
  function TileInfo(t: Tile): Option<Info> {
    if t.infoFails then None
    else Some(Info(TitleOf(t.titles), UrlOf(t.hrefs), PriceOf(t.prices), AsinOr(t.asin)))
  }

  /** The three check-then-assign field loops of the tile parser. */
  method ReadTileInfo(t: Tile) returns (info: Option<Info>)
    ensures info == TileInfo(t)
  {
    if t.infoFails {
      return None;
    }
    var title := ResolveFirst(StripReads(t.titles), TitleOk, "");
    var href := ResolveFirst(t.hrefs, ProductHref, "");
    var url := if href != "" then Absolutise(href) else "";
    var price := ResolveFirst(StripReads(t.prices), PriceOk, "");
    info := Some(Info(title, url, if price != "" then price else NoPrice, AsinOr(t.asin)));
  }

  /** The info a tile contributes to the selection: only a tile with a
      non-blank `data-asin` is parsed, and only an info with a title and a
      url is kept. */
  function Selected(t: Tile): Option<Info> {
    if t.stale || t.asin.None? || Strip(t.asin.value) == "" then None
    else
      var info := TileInfo(t);
      if info.Some? && info.value.title != "" && info.value.url != "" then info else None
  }

  /** The tile loop (Selenium_Amazon.py:699-709): the first
      `2 * max_products` tiles, each selected tile appended, stopping once
      `max_products` are held. */
  method SelectTiles(tiles: seq<Tile>, maxProducts: int) returns (infos: seq<Info>)
    ensures infos == Take(FilterMap(PyPrefix(tiles, 2 * maxProducts), Selected), Cap(maxProducts))
  {
    var ts := PyPrefix(tiles, 2 * maxProducts);
    infos := [];
    var i := 0;
    while i < |ts|
      invariant 0 <= i <= |ts|
      invariant infos == FilterMap(ts[..i], Selected)
      invariant |infos| < Cap(maxProducts)
    {
      var t := ts[i];
      FilterMapStep(ts, i, Selected);
      if !t.stale && t.asin.Some? && Strip(t.asin.value) != "" {
        var info := ReadTileInfo(t);
        if info.Some? && info.value.title != "" && info.value.url != "" {
          infos := infos + [info.value];
          if |infos| >= maxProducts {
            SelectionBound(ts, i + 1, infos, Cap(maxProducts));
            return;
          }
        }
      }
      i := i + 1;
    }
    assert ts[..i] == ts;
    TakeAll(infos, Cap(maxProducts));
  }

  lemma SelectionBound(ts: seq<Tile>, i: nat, infos: seq<Info>, n: nat)
    requires i <= |ts| && infos == FilterMap(ts[..i], Selected) && |infos| == n
    ensures infos == Take(FilterMap(ts, Selected), n)
  {
    TakeAtBound(ts, i, Selected, n);
  }

  /** What a selected info satisfies: the title passes its check, the url is
      an absolute product link, the price has a '$' or is the placeholder,
      and the ASIN is the tile's non-blank attribute. */
  predicate GoodInfo(i: Info) {
    TitleOk(i.title)
    && "http" <= i.url && (Contains(i.url, DpTag) || Contains(i.url, "/gp/"))
    && (i.price == NoPrice || PriceOk(i.price))
    && Strip(i.asin) != ""
  }

  lemma SelectedIsGood(t: Tile)
    requires Selected(t).Some?
    ensures GoodInfo(Selected(t).value)
    ensures Selected(t).value.asin == t.asin.value
  {
    var h := FirstValid(t.hrefs, ProductHref);
    if h.Some? {
      if Contains(h.value, DpTag) {
        AbsolutiseKeepsHref(h.value, DpTag);
      } else {
        AbsolutiseKeepsHref(h.value, "/gp/");
      }
    }
    var p := FirstValid(StripReads(t.prices), PriceOk).GetOr("");
    assert p == "" || PriceOk(p);
  }

  /** Every info the selection keeps is good, and it comes from one of the
      tiles examined. */
  lemma SelectionKeepsGood(tiles: seq<Tile>, maxProducts: int, k: nat)
    requires k < |Take(FilterMap(PyPrefix(tiles, 2 * maxProducts), Selected), Cap(maxProducts))|
    ensures var info := Take(FilterMap(PyPrefix(tiles, 2 * maxProducts), Selected), Cap(maxProducts))[k];
            GoodInfo(info)
            && exists i :: 0 <= i < |PyPrefix(tiles, 2 * maxProducts)|
                           && Selected(PyPrefix(tiles, 2 * maxProducts)[i]) == Some(info)
  {
    var ts := PyPrefix(tiles, 2 * maxProducts);
    var all := FilterMap(ts, Selected);
    assert Take(all, Cap(maxProducts))[k] == all[k];
    FilterMapFrom(ts, Selected, k);
    var i :| 0 <= i < |ts| && Selected(ts[i]) == Some(all[k]);
    SelectedIsGood(ts[i]);
  }

  /** Only the first `2 * max_products` tiles are examined: tiles after them
      change neither the examined slice nor the selection made from it. */
  lemma SelectionIgnoresLaterTiles(tiles: seq<Tile>, more: seq<Tile>, maxProducts: int)
    requires maxProducts >= 0 && |tiles| >= 2 * maxProducts
    ensures PyPrefix(tiles + more, 2 * maxProducts) == PyPrefix(tiles, 2 * maxProducts)
    ensures Take(FilterMap(PyPrefix(tiles + more, 2 * maxProducts), Selected), Cap(maxProducts))
            == Take(FilterMap(PyPrefix(tiles, 2 * maxProducts), Selected), Cap(maxProducts))
  {
    assert (tiles + more)[..2 * maxProducts] == tiles[..2 * maxProducts];
  }

  /** First valid wins: once a title locator passes, the later ones are
      never consulted. */
  lemma TitleIgnoresLater(titles: seq<Option<string>>, more: seq<Option<string>>)
    requires FirstValid(StripReads(titles), TitleOk).Some?
    ensures TitleOf(titles + more) == TitleOf(titles)
  {
    StripReadsAppend(titles, more);
    FirstValidIgnoresLater(StripReads(titles), StripReads(more), TitleOk);
  }

  /** A title read that fails the check is passed over: an ad title
      ("Sponsored ...") or a short one never becomes the title. */
  lemma TitleSkipsRejected(x: string, more: seq<Option<string>>)
    requires !TitleOk(Strip(x))
    ensures TitleOf([Some(x)] + more) == TitleOf(more)
  {
    StripReadsAppend([Some(x)], more);
    assert StripReads([Some(x)]) == [Some(Strip(x))];
    assert FirstValidIndex(StripReads([Some(x)]), TitleOk) == 1;
    FirstValidSkipsFailures(StripReads([Some(x)]), StripReads(more), TitleOk);
  }
}

=== FILE: wrappers.dfy ===
/** Option, the absent-or-present value used throughout the model:
    a locator attempt that raised is None, a value read is Some. */
module Wrappers {

  datatype Option<+T> = None | Some(value: T) {

    /** The value when present, `default` otherwise (Python's `x or default`
        when x is None). */
    function GetOr(default: T): T {
      match this
      case Some(v) => v
      case None => default
    }
  }
}
